=== FILE: README.md ===
# Tree decomposition of a guide tree

This project models the tree-decomposition core of `helpers/treeutils.py`.
The core cuts a guide tree, taken from its seed node, into subtrees whose leaf sets partition
the taxa, so that each subset can be aligned separately. It consists of
three pieces:

- **Edge choice.**
  - `getCentroidEdge` picks the centroid edge: the edge whose clade holds
    closest to half of the leaves, taking the first such edge in postorder.
  - `getCentroidEdgeRandom` picks uniformly among the internal edges that
    leave at least a given number of leaves on each side.
- **The split.** `bipartitionByEdge` detaches the clade below an edge as a
  tree of its own. What remains of the original tree is the other half.
  Both halves then pass through dendropy's `update_bipartitions`, which
  suppresses unary nodes.
- **The three decomposition drivers.**
  - `decomposeTree` splits the first largest tree until there are
    `numSubsets` trees, stopping early once the largest tree is within
    `maxSubsetSize`.
  - `decomposeTreeNumSubsets` splits the head of a stable largest-first
    sort until there are `numSubsets` trees.
  - `decomposeTreeMaxSubsetSize` splits recursively until every piece is
    within `maxSubsetSize`, either by centroid or at random.

## How the model is built

- **Trees.** A tree is the immutable datatype
  `Tree = Leaf(taxon) | Node(children)`.
  - A node is addressed by its path of child indices from the root.
  - The empty path stands for the root's seed edge, which has no tail
    node. Every other valid path is an edge, named after its head node.
  - A clade's size is its number of labelled leaves. This equals the
    popcount of dendropy's bipartition bitmask when the taxa are distinct,
    which holds when each taxon has its own bit in the namespace.
  - Leaves are kept as a sequence in left-to-right order.
- **Tidy trees.** `loadTree` resolves polytomies, collapses the basal
  bifurcation and calls `update_bipartitions`, so every internal node of
  the input has two or more children. The model calls such a tree `Tidy`.
  - `Trees.Suppress` models the suppression of unary nodes: a node with a
    single child is replaced by that child, the root included.
    `Splitting.BipartitionByEdge` applies it to both halves, so splitting a
    tidy tree gives two tidy trees.
  - On a tidy tree, `leaf_nodes()`, which the drivers use as their size
    key, counts exactly the labelled leaves (`Trees.TidyLeafNodes`). The
    model's sizes are labelled-leaf counts, so on the trees the drivers
    actually handle the two keys agree (`Forests.TidyKeys`).
  - The drivers accept any tree. Their general contracts hold for every
    tree, and the `...OnTidy` lemmas state what more holds for tidy input:
    exactly when each driver fails, and that no piece is empty.
- **Partition.** That the pieces "partition the leaves" is stated with
  multisets: the pieces together hold each taxon exactly as often as the
  input tree does. When the input's taxa are distinct, `Forests.PartitionDisjoint`
  turns this into the set statement: the pieces are pairwise disjoint and
  their union is all the leaves.
- **Balance.** The balance of an edge is `|n - 2k|`. This is twice the
  source's float `|n/2 - k|`, so it orders edges the same way.
- **Edge order.** Edges are enumerated in postorder: children before
  parents, left to right. This is the order of dendropy's
  `postorder_edge_iter`, and it decides ties.
- **Errors.**
  - An unassigned `bestEdge` (an `UnboundLocalError` in the source) is the
    error `NoEdge`.
  - `random.choice` on an empty candidate list is the error
    `NoEligibleEdge`.
- **Random draws.** A random draw is a number supplied by the caller. In
  the recursive driver it is a function of the tree being split.
- **The random bound.** The float bound `maxSubsetSize/3` is the exact
  rational `MinBound(maxSubsetSize, 3)`.
- **Choosing the tree to split.**
  - `max` keeps the first of several equally large trees.
  - `list.remove` removes that very tree, so the model removes by index.
  - `sort(reverse=True)` is stable. It is modelled as an insertion sort
    whose stability is proved: `Ordering.SortBySizeDesc` preserves the
    relative order of the trees of each leaf count.
- **The loops.** The `while len(trees) < numSubsets` loops are recursive
  functions over the current collection of trees, ending when the
  collection reaches `numSubsets` trees.
- **Agreement of the count-driven drivers.** Both drivers split the first
  largest tree at each pass; they differ only in where the remaining trees
  are kept. `Decompose.DriversAgree` proves that, without a size bound,
  they return the same trees. Among trees of equal leaf count the order is
  also the same; only trees of different leaf counts may come out in a
  different order.

Two behaviours of the code are easy to misread:

- **Which edges `getCentroidEdge` examines.** It examines every edge except
  the seed edge, including pendant edges to leaves, because it iterates
  `postorder_edge_iter`. It does not examine only internal edges.
  `Centroid.IsCentroid` therefore minimises over all edges.
- **When `getCentroidEdge` fails.** It fails exactly when the root has no
  children. On an arbitrary tree that is not the same as having fewer than
  two leaves: a root with a single child leaf has one edge, and the call
  returns it. On a tidy tree the two conditions coincide
  (`Centroid.CentroidOnTidy`). `Centroid.CentroidNontrivial` proves the
  split is non-trivial from two leaves up.

## Model

| member | source | states |
|---|---|---|
| Trees.Suppress | helpers/treeutils.py:150-151 | suppressing unary nodes keeps the leaves and their order, keeps exactly the same clades, and adds no node; a tree without childless internal nodes comes out tidy |
| Trees.TidyLeafNodes | helpers/treeutils.py:127 | on a tidy tree the number of childless nodes, the length of `leaf_nodes()`, is the number of labelled leaves |
| Trees.TidyLeafCount | helpers/treeutils.py:134 | a tidy tree has at least one leaf, and at least two unless it is a single leaf |
| Trees.PostorderExact | helpers/treeutils.py:157 | the postorder enumeration lists exactly the nodes of the tree, so every edge is examined |
| Trees.CladeIsSlice | helpers/treeutils.py:160 | the leaves below an edge are a contiguous run of the tree's leaves, of the clade's size |
| Centroid.CentroidEdge | helpers/treeutils.py:154-164 | the result is an edge exactly when the root has children, otherwise `NoEdge`; the edge returned is a centroid: balance no worse than any edge's, and strictly better than every edge before it in postorder |
| Centroid.CentroidUnique | helpers/treeutils.py:157-163 | any edge meeting the centroid definition is the edge returned, so ties are broken by postorder alone |
| Centroid.CentroidNontrivial | helpers/treeutils.py:155-164 | with at least two leaves a centroid edge exists and its clade holds between 1 and n - 1 leaves |
| Centroid.CentroidOnTidy | helpers/treeutils.py:154-164 | on a tidy tree the centroid search succeeds exactly when the tree has at least two leaves |
| Centroid.Candidates | helpers/treeutils.py:169-179 | an edge is a candidate exactly when it is a non-seed internal edge with at least the bound's leaves on both sides |
| Centroid.CentroidEdgeRandom | helpers/treeutils.py:166-181 | a chosen edge is eligible; the call fails with `NoEligibleEdge` exactly when no edge is eligible |
| Centroid.RandomReachesEveryCandidate | helpers/treeutils.py:181 | every eligible edge is returned for some draw |
| Splitting.DetachLeaves | helpers/treeutils.py:147-148 | removing the clade cuts its leaves out of the tree's leaf sequence at the clade's offset, leaving the others in order |
| Splitting.DetachNodes | helpers/treeutils.py:147-149 | the remaining tree and the detached clade share out the original's nodes |
| Splitting.CutDistinct | helpers/treeutils.py:146-152 | cutting a run out of a sequence of distinct taxa gives two distinct, disjoint sequences |
| Splitting.DetachNoChildless | helpers/treeutils.py:148 | removing one child from a node of a tidy tree leaves no internal node childless |
| Splitting.DetachClades | helpers/treeutils.py:147-148 | removing the clade keeps every other clade of the tree, except that the clades above the edge lose the removed leaves as one block; no new clade appears |
| Splitting.BipartitionByEdge | helpers/treeutils.py:146-152 | the second half has exactly the clades of the subtree below the edge; every clade of the first half is a clade of the original, or one with the detached leaves cut out, and every clade of the original survives in one of these forms; the second half holds the leaves of the clade below the edge and the first the rest, cut at the clade's offset; together they hold exactly the original's leaves; each half has fewer nodes; a tidy tree gives two tidy halves, the second being the clade itself; with distinct taxa the halves are disjoint |
| Ordering.FirstLargest | helpers/treeutils.py:113 | the index picked has the greatest leaf count, and every tree before it has strictly fewer leaves |
| Ordering.SortBySizeDesc | helpers/treeutils.py:127 | the result is a permutation, sorted by decreasing leaf count, keeping the input order among trees of equal leaf count |
| Ordering.HavingRemoveFirst | helpers/treeutils.py:120 | removing the first tree of its leaf count drops the head of that count's trees and leaves the other counts alone |
| Ordering.SortHeadIsFirstLargest | helpers/treeutils.py:113-128 | the head after the sort is the tree `max` picks, so both count-driven drivers split the same tree |
| Forests.PermutedLeaves | helpers/treeutils.py:127 | reordering the trees does not change the leaves they hold |
| Forests.PartitionCount | helpers/treeutils.py:133-144 | pieces of at most m leaves that partition a tree of n leaves number at least n / m |
| Forests.LargestHasTwo | helpers/treeutils.py:112-118 | with fewer trees than leaves, the largest tree has at least two leaves and so can be split |
| Forests.OneLeafEach | helpers/treeutils.py:112-118 | with no empty tree and no fewer trees than leaves, every tree has exactly one leaf, so none can be split further |
| Forests.TidyKeys | helpers/treeutils.py:113 | in a collection of tidy trees, every tree's `leaf_nodes()` length equals its labelled-leaf count, so the model's size key is the source's |
| Forests.PartitionDisjoint | helpers/treeutils.py:119-121 | with distinct taxa, a partition of the leaves has pairwise disjoint pieces whose union is all the leaves |
| Decompose.SplitAt | helpers/treeutils.py:118-121 | the split tree is removed and its two halves appended, remaining tree first, the other trees keeping their order; leaves are unchanged; it fails exactly when the tree has no edge; from two leaves up both halves are non-empty and smaller |
| Decompose.SplitKeepsNoneEmpty | helpers/treeutils.py:118-121 | splitting a tree of two or more leaves keeps every tree of the collection non-empty |
| Decompose.SplitKeepsTidy | helpers/treeutils.py:118-121 | in a tidy collection a tree can be split exactly when it has two or more leaves, and the collection stays tidy |
| Decompose.SizeBoundStep | helpers/treeutils.py:113-121 | the loop stops exactly when the first largest tree is within the bound, and then every tree is; otherwise it splits that tree |
| Decompose.SizeBoundTidyStep | helpers/treeutils.py:113-121 | a pass over tidy trees keeps them tidy, and fails when every tree is down to one leaf and no bound of at least 1 stops the loop |
| Decompose.SizeBoundLoop | helpers/treeutils.py:112-122 | the loop keeps the leaves; it ends with at least `numSubsets` trees, or earlier with the collection unchanged and every tree within the bound; it cannot fail when the bound is at least 1 or there are at least `numSubsets` leaves, and then it empties no tree; from tidy trees it fails exactly when neither holds and more trees are still needed, and it keeps them tidy |
| Decompose.DecomposeTree | helpers/treeutils.py:110-122 | the result partitions the input's leaves; it ends with `numSubsets` pieces or with every piece within `maxSubsetSize`; it cannot fail when the bound is at least 1 or there are at least `numSubsets` leaves, and then, if the tree has at least one leaf, no piece is empty |
| Decompose.DecomposeTreeOnTidy | helpers/treeutils.py:110-122 | on a tidy tree `decomposeTree` fails exactly when there is no bound of at least 1 and fewer leaves than requested pieces; otherwise its pieces are tidy and none is empty |
| Decompose.NumSubsetsStep | helpers/treeutils.py:126-130 | one pass splits the first largest tree and keeps the rest in sorted order, leaves unchanged |
| Decompose.PermutedNoneEmpty | helpers/treeutils.py:127 | sorting keeps every tree non-empty |
| Decompose.NumSubsetsTidyStep | helpers/treeutils.py:126-130 | a pass over tidy trees keeps them tidy, and fails when every tree is down to one leaf |
| Decompose.NumSubsetsLoop | helpers/treeutils.py:126-131 | the loop keeps the leaves and ends with exactly `numSubsets` trees, or the trees it started with if there were already that many; it cannot fail, and empties no tree, when there are at least `numSubsets` leaves; from tidy trees it fails exactly when more trees are needed than there are leaves, and it keeps them tidy |
| Decompose.DecomposeTreeNumSubsets | helpers/treeutils.py:124-131 | exactly `numSubsets` pieces (one when it is below 2) partitioning the input's leaves; it succeeds whenever there are at least `numSubsets` leaves, and then, if the tree has at least one leaf, no piece is empty |
| Decompose.NumSubsetsOnTidy | helpers/treeutils.py:124-131 | on a tidy tree `decomposeTreeNumSubsets` fails exactly when `numSubsets` exceeds the number of leaves; otherwise its pieces are tidy, so none is empty and the sort key is the labelled-leaf count throughout |
| Decompose.SameLargest | helpers/treeutils.py:113-128 | collections holding the same trees, with equally large trees in the same order, pick the same tree to split, and it heads the sorted list |
| Decompose.StepsAgree | helpers/treeutils.py:113-130 | from such collections, a pass of each count-driven loop without a size bound splits the same tree, and the results again agree |
| Decompose.LoopsAgree | helpers/treeutils.py:112-131 | the two loops, started from agreeing collections, fail together or end in agreeing collections |
| Decompose.DriversAgree | helpers/treeutils.py:110-131 | without a size bound `decomposeTree` and `decomposeTreeNumSubsets` fail on the same inputs, and otherwise return the same trees, with trees of equal leaf count in the same order |
| Decompose.SelectEdge | helpers/treeutils.py:136-139 | the centroid edge in centroid mode; an eligible edge for the bound `maxSubsetSize / 3` in random mode |
| Decompose.DecomposeMaxSize | helpers/treeutils.py:133-144 | a tree within the bound is returned alone; otherwise an edge was selected, and the pieces are a partition of the remaining tree followed by a partition of the detached clade, each within the bound; centroid mode with a bound of at least 1 never fails and, when the tree has at least one leaf, gives no empty piece; in random mode, when the tree was over the bound or holds at least a third of the bound in leaves, every piece keeps at least a third of the bound |
| Decompose.Join | helpers/treeutils.py:141-142 | the pieces are a partition of the remaining tree followed by a partition of the detached clade, and together they partition the tree's leaves |
| Decompose.MaxSizeOnTidy | helpers/treeutils.py:133-144 | on a tidy tree, centroid mode fails exactly when the bound is below 1; in either mode the pieces of a tidy tree are tidy |
| Decompose.PieceCountBound | helpers/treeutils.py:133-144 | there are at least n / `maxSubsetSize` pieces |
| Scenarios.CaterpillarNineByThree | helpers/treeutils.py:133-144 | a nine-leaf caterpillar split by centroid to at most three leaves gives at least three pieces holding all nine leaves |

## Left out

- `loadTree` and `writeTree` (`helpers/treeutils.py:16-32`) are left out. They are file I/O through dendropy.
- The tree comparisons (`helpers/treeutils.py:34-91`) are left out. They delegate to dendropy's distance routines.
- `decomposeGuideTree` (`helpers/treeutils.py:93-108`) is left out. It reads and writes sequence files around the drivers.
- The collapse of the basal bifurcation is not modelled: `collapse_basal_bifurcation` in `loadTree` (`helpers/treeutils.py:25`) and the same collapse that `update_bipartitions` applies to unrooted trees after each split (`helpers/treeutils.py:150-151`). When the root has exactly two children, at least one of them internal, dendropy merges an internal child into the root. The model keeps the two-child root, and with it the merged child's edge. This changes the tree's shape and its list of edges, not the leaves on either side of any edge that remains. The kept edge's clade is the complement of its sibling's, so the two edges have the same balance. Its effect on the edge choice depends on the case:
  - In random mode the model may list one candidate edge more than the source, so a given draw may pick a different edge.
  - In centroid mode, when the sibling comes first in postorder, the sibling's edge is examined earlier and the kept edge is never the first best.
  - When the merged child comes first and the sibling is a leaf, the kept edge cuts off that one leaf, with balance n - 2. The first pendant edge inside the merged child has the same balance and comes earlier, so again the kept edge is never the first best.
  - When the merged child comes first and the sibling is internal too, the kept edge can be the first best. Then the model splits off the merged child where the source splits off the sibling: the same two leaf sets, with remaining and detached swapped. For example, after some split a root `((a,b),(c,d))` is split by the model into `(c,d)` and `(a,b)`, remaining tree first. The source, after the merge, splits it into `(a,b)` and `(c,d)`. The order of the pieces, and through it later tie-breaks, can then differ.
  - None of these cases is proved in the model.
- The bitmask caching of `update_bipartitions` is not modelled. Leaf counts are computed from the tree's structure whenever they are needed.
- `random.choice` is not modelled as randomness. A caller-supplied draw is taken modulo the number of candidates, so uniformity is not stated. `Centroid.RandomReachesEveryCandidate` states that every candidate is reachable.
- `maxSubsetSize/3` is a float in the source. It is modelled exactly as a rational, and float rounding is not modelled.
- Modes other than "centroid" and "random" are not modelled. `Decompose.Mode` has only these two, and in the source any other string fails with an unassigned edge.
- A `numSubsets` of `None` is not modelled. The count-driven drivers take an integer, and in the source the comparison would raise.
- Decompose.DecomposeTreeNumSubsets: its size key is the labelled-leaf count, where the source sorts by `len(leaf_nodes())` (`helpers/treeutils.py:127`). The two agree on tidy trees, which are all the source ever holds (`Forests.TidyKeys`). On an untidy input they differ: a childless internal node counts as a leaf for `leaf_nodes()` but holds no labelled leaf. The general contract therefore speaks of labelled leaves, and its exact failure condition is stated for tidy input only (`Decompose.NumSubsetsOnTidy`). For example, the tidy tree `((a,b),c,d)` asked for 5 pieces fails in both the model and the source once every piece is a single leaf.
- Decompose.DecomposeTree: same key difference on untidy input (`helpers/treeutils.py:113`, `115`). The exact failure condition is stated for tidy input only (`Decompose.DecomposeTreeOnTidy`).
- Decompose.DecomposeMaxSize: same key difference on untidy input (`helpers/treeutils.py:134`). The exact failure condition in centroid mode is stated for tidy input only (`Decompose.MaxSizeOnTidy`).
- dendropy's in-place mutation is not modelled, nor the aliasing it creates. `bipartitionByEdge` returns the mutated original as its first half; the model builds that half as a new value.
- Error kinds are not modelled beyond `NoEdge` and `NoEligibleEdge`. The source's exceptions (`UnboundLocalError`, `IndexError`) are not distinguished further.

=== FILE: centroid.dfy ===
/**
 * Edge selection: the deterministic centroid edge (`getCentroidEdge`) and
 * the randomised choice among well-balanced internal edges
 * (`getCentroidEdgeRandom`).
 */
module Centroid {
  import opened Results
  import opened Trees

  function Abs(x: int): nat
  {
    if x < 0 then -x else x
  }

  /** How unevenly the edge `p` splits the leaves: |n - 2k| for a tree of n
      leaves of which k lie below the edge. This is twice the source's
      float |n/2 - k|, so it orders edges identically. */
  function Balance(t: Tree, p: Path): nat
    requires ValidPath(t, p)
  {
    Abs(LeafCount(t) - 2 * CladeSize(t, p))
  }

  predicate AllValid(t: Tree, order: seq<Path>)
  {
    forall j :: 0 <= j < |order| ==> ValidPath(t, order[j])
  }

  /** Among the edges listed in `order[..hi]`, `order[k]` has the least
      balance, and every edge listed before it is strictly worse. */
  predicate FirstBest(t: Tree, order: seq<Path>, hi: nat, k: nat)
  {
    && k < hi <= |order|
    && IsEdge(t, order[k])
    && (forall j :: 0 <= j < hi && IsEdge(t, order[j]) ==> Balance(t, order[k]) <= Balance(t, order[j]))
    && (forall j :: 0 <= j < k && IsEdge(t, order[j]) ==> Balance(t, order[k]) < Balance(t, order[j]))
  }

  /** The loop of `getCentroidEdge` from position `i` of `order` on, with
      `best` the index of the best edge seen so far (`None` while
      `bestBalance` is still infinite). The seed edge is skipped, and a
      later edge replaces the best only when strictly better. */
  function Scan(t: Tree, order: seq<Path>, i: nat, best: Option<nat>): (r: Option<nat>)
    requires i <= |order|
    requires AllValid(t, order)
    requires best.None? ==> forall j :: 0 <= j < i ==> |order[j]| == 0
    requires best.Some? ==> FirstBest(t, order, i, best.value)
    ensures r.None? ==> forall j :: 0 <= j < |order| ==> |order[j]| == 0
    ensures r.Some? ==> FirstBest(t, order, |order|, r.value)
    decreases |order| - i
  {
    if i == |order| then best
    else if |order[i]| == 0 then
      KeepBest(t, order, i, best);
      Scan(t, order, i + 1, best)
    else if best.None? || Balance(t, order[i]) < Balance(t, order[best.value]) then
      NewBest(t, order, i, best);
      Scan(t, order, i + 1, Some(i))
    else
      KeepBest(t, order, i, best);
      Scan(t, order, i + 1, best)
  }

  /** The best edge so far stays the first best past an entry that is the
      seed or no better. */
  lemma KeepBest(t: Tree, order: seq<Path>, i: nat, best: Option<nat>)
    requires AllValid(t, order) && i < |order|
    requires best.None? ==> forall j :: 0 <= j < i ==> |order[j]| == 0
    requires best.Some? ==> FirstBest(t, order, i, best.value)
    requires best.Some? && |order[i]| > 0 ==> Balance(t, order[i]) >= Balance(t, order[best.value])
    requires best.None? ==> |order[i]| == 0
    ensures best.None? ==> forall j :: 0 <= j < i + 1 ==> |order[j]| == 0
    ensures best.Some? ==> FirstBest(t, order, i + 1, best.value)
  {
  }

  /** An edge strictly better than every edge before it is the first best
      so far. */
  lemma NewBest(t: Tree, order: seq<Path>, i: nat, best: Option<nat>)
    requires AllValid(t, order) && i < |order| && |order[i]| > 0
    requires best.None? ==> forall j :: 0 <= j < i ==> |order[j]| == 0
    requires best.Some? ==> FirstBest(t, order, i, best.value) && Balance(t, order[i]) < Balance(t, order[best.value])
    ensures FirstBest(t, order, i + 1, i)
  {
  }

  /** The centroid edge as an independent definition: an edge of least
      balance over all edges of the tree, pendant edges included, that
      comes before every other edge of the same balance in postorder. */
  ghost predicate IsCentroid(t: Tree, p: Path)
  {
    && IsEdge(t, p)
    && (forall q :: IsEdge(t, q) ==> Balance(t, p) <= Balance(t, q))
    && exists k :: 0 <= k < |Postorder(t)| && Postorder(t)[k] == p
         && forall j :: 0 <= j < k && IsEdge(t, Postorder(t)[j]) ==>
              Balance(t, p) < Balance(t, Postorder(t)[j])
  }

  lemma FirstChildIsEdge(t: Tree)
    requires HasChildren(t)
    ensures IsEdge(t, [0])
  {
    assert [0][1..] == [];
  }

  /** `getCentroidEdge`: scans the edges in postorder and keeps the first
      one of least balance. Fails exactly when the root has no children,
      because then the seed edge is the only edge and `bestEdge` is never
      assigned. */
  function CentroidEdge(t: Tree): (r: Result<Path>)
    ensures r.Ok? <==> HasChildren(t)
    ensures r.Err? ==> r.error == NoEdge
    ensures r.Ok? ==> IsCentroid(t, r.value)
  {
    var order := Postorder(t);
    PostorderExact(t);
    var found := Scan(t, order, 0, None);
    if found.None? then
      assert HasChildren(t) ==> IsEdge(t, [0]) && [0] in order by {
        if HasChildren(t) {
          FirstChildIsEdge(t);
        }
      }
      Err(NoEdge)
    else
      var p := order[found.value];
      assert forall q :: IsEdge(t, q) ==> Balance(t, p) <= Balance(t, q) by {
        forall q | IsEdge(t, q)
          ensures Balance(t, p) <= Balance(t, q)
        {
          var j :| 0 <= j < |order| && order[j] == q;
        }
      }
      Ok(p)
  }

  /** The centroid edge is unique: any edge meeting the independent
      definition is the one `CentroidEdge` returns. */
  lemma CentroidUnique(t: Tree, p: Path)
    requires IsCentroid(t, p)
    ensures CentroidEdge(t) == Ok(p)
  {
    var r := CentroidEdge(t);
    assert r.Ok?;
    var q := r.value;
    var order := Postorder(t);
    var kp :| 0 <= kp < |order| && order[kp] == p
      && forall j :: 0 <= j < kp && IsEdge(t, order[j]) ==> Balance(t, p) < Balance(t, order[j]);
    var kq :| 0 <= kq < |order| && order[kq] == q
      && forall j :: 0 <= j < kq && IsEdge(t, order[j]) ==> Balance(t, q) < Balance(t, order[j]);
    assert Balance(t, p) <= Balance(t, q) && Balance(t, q) <= Balance(t, p);
    assert kp == kq;
  }

  /** With at least two leaves the centroid split is non-trivial: some
      pendant edge has balance n - 2 < n, so the chosen edge has between 1
      and n - 1 leaves below it. */
  lemma CentroidNontrivial(t: Tree)
    requires LeafCount(t) >= 2
    ensures CentroidEdge(t).Ok?
    ensures 1 <= CladeSize(t, CentroidEdge(t).value) < LeafCount(t)
  {
    TwoLeavesHaveChildren(t);
    var leafEdge := PendantEdgeExists(t);
    var p := CentroidEdge(t).value;
    assert Balance(t, leafEdge) == LeafCount(t) - 2;
    assert Balance(t, p) <= LeafCount(t) - 2;
  }

  /** On a tidy tree the seed edge is the only edge exactly when the tree
      is a single leaf, so the search fails exactly below two leaves. */
  lemma CentroidOnTidy(t: Tree)
    requires Tidy(t)
    ensures CentroidEdge(t).Ok? <==> LeafCount(t) >= 2
  {
    TidyLeafCount(t);
    if LeafCount(t) >= 2 {
      TwoLeavesHaveChildren(t);
    }
  }

  // ---------------------------------------------------------------------
  // Randomised selection

  type Positive = x: int | x > 0 witness 1

  /** The least number of leaves each side of a chosen edge must keep, as
      the fraction `num / den`: the source passes `maxSubsetSize / 3`, a
      float, or the integer default 5. */
  datatype MinBound = MinBound(num: int, den: Positive)

  predicate AtLeast(k: int, b: MinBound)
  {
    k * b.den >= b.num
  }

  /** An internal edge other than the seed edge with at least the bound's
      number of leaves on each side. */
  predicate Eligible(t: Tree, p: Path, b: MinBound)
  {
    && IsEdge(t, p)
    && HasChildren(Subtree(t, p))
    && AtLeast(CladeSize(t, p), b)
    && AtLeast(LeafCount(t) - CladeSize(t, p), b)
  }

  /** The eligible edges of `order`, in order. */
  function EligibleIn(t: Tree, order: seq<Path>, b: MinBound): (r: seq<Path>)
    ensures forall p :: p in r <==> p in order && Eligible(t, p, b)
    decreases |order|
  {
    if |order| == 0 then []
    else
      var rest := EligibleIn(t, order[1..], b);
      assert forall p :: p in order <==> p == order[0] || p in order[1..];
      if Eligible(t, order[0], b) then [order[0]] + rest else rest
  }

  /** The candidate list of `getCentroidEdgeRandom`: eligible edges in
      postorder. */
  function Candidates(t: Tree, b: MinBound): (r: seq<Path>)
    ensures forall p :: p in r <==> Eligible(t, p, b)
  {
    PostorderExact(t);
    EligibleIn(t, Postorder(t), b)
  }

  /** `getCentroidEdgeRandom`: `random.choice` over the candidates. The
      random draw is the caller-supplied `draw`, taken modulo the number of
      candidates; an empty candidate list is an error. */
  function CentroidEdgeRandom(t: Tree, b: MinBound, draw: nat): (r: Result<Path>)
    ensures r.Ok? ==> Eligible(t, r.value, b)
    ensures r.Err? <==> forall p :: !Eligible(t, p, b)
    ensures r.Err? ==> r.error == NoEligibleEdge
  {
    var cs := Candidates(t, b);
    if |cs| == 0 then Err(NoEligibleEdge) else Ok(cs[draw % |cs|])
  }

  /** Every eligible edge is the outcome of some draw. */
  lemma RandomReachesEveryCandidate(t: Tree, b: MinBound, p: Path)
    requires Eligible(t, p, b)
    ensures exists draw: nat :: CentroidEdgeRandom(t, b, draw) == Ok(p)
  {
    var cs := Candidates(t, b);
    var d :| 0 <= d < |cs| && cs[d] == p;
    assert d % |cs| == d;
    assert CentroidEdgeRandom(t, b, d) == Ok(p);
  }
}

=== FILE: decompose.dfy ===
/**
 * The three decomposition drivers of `helpers/treeutils.py`. Each keeps a
 * collection of trees, repeatedly selects an edge of one of them and
 * splits it there:
 *   - `decomposeTree`: split the first largest tree until there are
 *     `numSubsets` trees, stopping early once the largest is within
 *     `maxSubsetSize`;
 *   - `decomposeTreeNumSubsets`: split the head of the stable
 *     largest-first sort until there are `numSubsets` trees;
 *   - `decomposeTreeMaxSubsetSize`: split recursively until every piece
 *     is within `maxSubsetSize`, by centroid or at random.
 */
module Decompose {
  import opened Results
  import opened Trees
  import opened Centroid
  import opened Splitting
  import opened Ordering
  import opened Forests

  /** Removes `ts[i]` and appends the two halves of its centroid split,
      remaining tree first, as `trees + [t1, t2]` does. */
  function SplitAt(ts: seq<Tree>, i: nat): (r: Result<seq<Tree>>)
    requires i < |ts|
    ensures r.Ok? <==> HasChildren(ts[i])
    ensures r.Err? ==> r.error == NoEdge
    ensures r.Ok? ==> |r.value| == |ts| + 1 && r.value[..|ts| - 1] == ts[..i] + ts[i + 1..]
    ensures r.Ok? ==> (r.value[|ts| - 1], r.value[|ts|]) == BipartitionByEdge(ts[i], CentroidEdge(ts[i]).value)
    ensures r.Ok? ==> multiset(LeavesOf(r.value)) == multiset(LeavesOf(ts))
    ensures LeafCount(ts[i]) >= 2 ==>
      && r.Ok?
      && 1 <= LeafCount(r.value[|ts| - 1]) < LeafCount(ts[i])
      && 1 <= LeafCount(r.value[|ts|]) < LeafCount(ts[i])
  {
    match CentroidEdge(ts[i])
    case Err(e) => Err(e)
    case Ok(e) =>
      var halves := BipartitionByEdge(ts[i], e);
      var r := ts[..i] + ts[i + 1..] + [halves.0, halves.1];
      ReplaceShape(ts, i, halves.0, halves.1);
      ReplaceLeaves(ts, i, halves.0, halves.1);
      assert multiset(LeavesOf(r)) == multiset(LeavesOf(ts));
      assert LeafCount(ts[i]) >= 2 ==> 1 <= CladeSize(ts[i], e) < LeafCount(ts[i]) by {
        if LeafCount(ts[i]) >= 2 {
          CentroidNontrivial(ts[i]);
        }
      }
      Ok(r)
  }

  lemma ReplaceShape(ts: seq<Tree>, i: nat, a: Tree, b: Tree)
    requires i < |ts|
    ensures var r := ts[..i] + ts[i + 1..] + [a, b];
      && |r| == |ts| + 1
      && r[..|ts| - 1] == ts[..i] + ts[i + 1..]
      && r[|ts| - 1] == a && r[|ts|] == b
  {
  }

  /** Splitting a tree with two or more leaves in a collection of non-empty
      trees leaves every tree non-empty. */
  lemma SplitKeepsNoneEmpty(ts: seq<Tree>, i: nat)
    requires i < |ts| && NoneEmpty(ts) && LeafCount(ts[i]) >= 2
    ensures SplitAt(ts, i).Ok? && NoneEmpty(SplitAt(ts, i).value)
  {
    ReplaceNoneEmpty(ts, i, SplitAt(ts, i).value);
  }

  /** In a collection of tidy trees, a tree can be split exactly when it
      has two or more leaves, and splitting it keeps the collection tidy. */
  lemma SplitKeepsTidy(ts: seq<Tree>, i: nat)
    requires i < |ts| && AllTidy(ts)
    ensures SplitAt(ts, i).Ok? <==> LeafCount(ts[i]) >= 2
    ensures SplitAt(ts, i).Ok? ==> AllTidy(SplitAt(ts, i).value)
  {
    TidyLeafCount(ts[i]);
    var r := SplitAt(ts, i);
    if r.Ok? {
      ReplaceTidy(ts, i, r.value);
    }
  }

  // ---------------------------------------------------------------------
  // decomposeTree

  /** What one pass of the `decomposeTree` loop does. */
  datatype Step = Stop(pieces: seq<Tree>) | Grown(pieces: seq<Tree>)

  /** One pass of the `decomposeTree` loop: if the first largest tree is
      within the size bound the collection is returned as it is; otherwise
      that tree is replaced by its two halves at the end. */
  function SizeBoundStep(ts: seq<Tree>, maxSubsetSize: Option<int>): (r: Result<Step>)
    requires |ts| > 0
    ensures (r.Ok? && r.value.Stop?) <==>
      (maxSubsetSize.Some? && LeafCount(ts[FirstLargest(ts)]) <= maxSubsetSize.value)
    ensures r.Ok? && r.value.Stop? ==> r.value.pieces == ts && AllWithin(ts, maxSubsetSize.value)
    ensures r.Ok? && r.value.Grown? ==> SplitAt(ts, FirstLargest(ts)) == Ok(r.value.pieces)
    ensures r.Err? ==> r.error == NoEdge
    ensures LeafCount(ts[FirstLargest(ts)]) >= 2 ==> r.Ok?
  {
    var i := FirstLargest(ts);
    if maxSubsetSize.Some? && LeafCount(ts[i]) <= maxSubsetSize.value then
      Ok(Stop(ts))
    else
      match SplitAt(ts, i)
      case Err(e) => Err(e)
      case Ok(next) => Ok(Grown(next))
  }

  /** The number of pieces the count-driven drivers aim for: the loop
      never runs when `numSubsets` is below 2, leaving the one input tree. */
  function TargetCount(numSubsets: int): nat
  {
    if numSubsets < 1 then 1 else numSubsets
  }

  /** Inputs for which the `decomposeTree` loop never meets a tree it
      cannot split: either the size bound is at least 1, so any tree over
      it has two leaves, or the trees hold at least as many leaves as
      pieces are requested. */
  predicate CanAlwaysSplit(ts: seq<Tree>, maxSubsetSize: Option<int>, numSubsets: int)
  {
    (maxSubsetSize.Some? && maxSubsetSize.value >= 1) || numSubsets <= |LeavesOf(ts)|
  }

  /** The `while len(trees) < numSubsets` loop of `decomposeTree`, from the
      collection `ts` on. It ends with at least `numSubsets` trees, or
      early, unchanged, once the largest tree is within the bound. */
  function SizeBoundLoop(ts: seq<Tree>, maxSubsetSize: Option<int>, numSubsets: int): (r: Result<seq<Tree>>)
    requires |ts| >= 1
    ensures r.Ok? ==> multiset(LeavesOf(r.value)) == multiset(LeavesOf(ts))
    ensures r.Ok? ==> |ts| <= |r.value| && (|r.value| <= numSubsets || r.value == ts)
    ensures r.Ok? ==> |r.value| >= numSubsets || (maxSubsetSize.Some? && AllWithin(r.value, maxSubsetSize.value))
    ensures r.Err? ==> r.error == NoEdge
    ensures CanAlwaysSplit(ts, maxSubsetSize, numSubsets) ==> r.Ok?
    ensures r.Ok? && CanAlwaysSplit(ts, maxSubsetSize, numSubsets) && NoneEmpty(ts) ==> NoneEmpty(r.value)
    ensures AllTidy(ts) ==> (r.Ok? <==> CanAlwaysSplit(ts, maxSubsetSize, numSubsets) || |ts| >= numSubsets)
    ensures r.Ok? && AllTidy(ts) ==> AllTidy(r.value)
    decreases numSubsets - |ts|
  {
    if |ts| >= numSubsets then Ok(ts)
    else
      SizeBoundPass(ts, maxSubsetSize, numSubsets);
      match SizeBoundStep(ts, maxSubsetSize)
      case Err(e) => Err(e)
      case Ok(Stop(pieces)) => Ok(pieces)
      case Ok(Grown(pieces)) => SizeBoundLoop(pieces, maxSubsetSize, numSubsets)
  }

  /** What one pass of the loop, while below `numSubsets`, hands on to the
      next: one more tree and the same leaves; no failure on safe inputs;
      no empty tree created on safe inputs; and, over tidy trees, tidy
      pieces, a stop only on safe inputs, and on unsafe inputs never
      enough pieces to end the loop. */
  lemma SizeBoundPass(ts: seq<Tree>, maxSubsetSize: Option<int>, numSubsets: int)
    requires 1 <= |ts| < numSubsets
    ensures CanAlwaysSplit(ts, maxSubsetSize, numSubsets) ==> SizeBoundStep(ts, maxSubsetSize).Ok?
    ensures var s := SizeBoundStep(ts, maxSubsetSize);
      s.Ok? && s.value.Grown? ==>
        && |s.value.pieces| == |ts| + 1
        && multiset(LeavesOf(s.value.pieces)) == multiset(LeavesOf(ts))
        && (CanAlwaysSplit(s.value.pieces, maxSubsetSize, numSubsets) <==> CanAlwaysSplit(ts, maxSubsetSize, numSubsets))
        && (CanAlwaysSplit(ts, maxSubsetSize, numSubsets) && NoneEmpty(ts) ==> NoneEmpty(s.value.pieces))
        && (AllTidy(ts) ==> AllTidy(s.value.pieces))
        && (AllTidy(ts) && !CanAlwaysSplit(ts, maxSubsetSize, numSubsets) ==> |s.value.pieces| < numSubsets)
    ensures var s := SizeBoundStep(ts, maxSubsetSize);
      AllTidy(ts) && s.Ok? && s.value.Stop? ==> CanAlwaysSplit(ts, maxSubsetSize, numSubsets)
  {
    var i := FirstLargest(ts);
    LargestHasTwo(ts, i);
    SizeBoundTidyStep(ts, maxSubsetSize);
    var s := SizeBoundStep(ts, maxSubsetSize);
    if s.Ok? && s.value.Grown? {
      var pieces := s.value.pieces;
      assert |LeavesOf(pieces)| == |multiset(LeavesOf(pieces))| == |LeavesOf(ts)|;
      if CanAlwaysSplit(ts, maxSubsetSize, numSubsets) && NoneEmpty(ts) {
        SplitKeepsNoneEmpty(ts, i);
      }
      if AllTidy(ts) && !CanAlwaysSplit(ts, maxSubsetSize, numSubsets) {
        AllTidyNoneEmpty(ts);
      }
    }
    if AllTidy(ts) && s.Ok? && s.value.Stop? {
      TidyLeafCount(ts[i]);
    }
  }

  /** One pass over tidy trees keeps them tidy, and fails once every tree
      is down to one leaf unless a size bound of at least 1 stops it. */
  lemma SizeBoundTidyStep(ts: seq<Tree>, maxSubsetSize: Option<int>)
    requires |ts| > 0
    ensures var r := SizeBoundStep(ts, maxSubsetSize);
      AllTidy(ts) && r.Ok? && r.value.Grown? ==> AllTidy(r.value.pieces)
    ensures AllTidy(ts) && |ts| >= |LeavesOf(ts)| && !(maxSubsetSize.Some? && maxSubsetSize.value >= 1) ==>
      SizeBoundStep(ts, maxSubsetSize).Err?
  {
    if AllTidy(ts) {
      var i := FirstLargest(ts);
      SplitKeepsTidy(ts, i);
      if |ts| >= |LeavesOf(ts)| {
        AllTidyNoneEmpty(ts);
        OneLeafEach(ts, i);
      }
    }
  }

  /** Inputs for which `decomposeTree` never meets a tree it cannot split. */
  predicate SizeBoundSafe(tree: Tree, maxSubsetSize: Option<int>, numSubsets: int)
  {
    (maxSubsetSize.Some? && maxSubsetSize.value >= 1) || numSubsets <= LeafCount(tree)
  }

  /** `decomposeTree(tree, maxSubsetSize, numSubsets)`; `None` for
      `maxSubsetSize` is Python's `None`. On return either the requested
      number of pieces is reached or every piece is within the bound. */
  function DecomposeTree(tree: Tree, maxSubsetSize: Option<int>, numSubsets: int): (r: Result<seq<Tree>>)
    ensures r.Ok? ==> Partitions(r.value, tree)
    ensures r.Ok? ==> 1 <= |r.value| <= TargetCount(numSubsets)
    ensures r.Ok? ==>
      |r.value| == TargetCount(numSubsets) || (maxSubsetSize.Some? && AllWithin(r.value, maxSubsetSize.value))
    ensures r.Err? ==> r.error == NoEdge
    ensures SizeBoundSafe(tree, maxSubsetSize, numSubsets) ==> r.Ok?
    ensures r.Ok? && SizeBoundSafe(tree, maxSubsetSize, numSubsets) && LeafCount(tree) >= 1 ==>
      NoneEmpty(r.value)
  {
    SingletonLeaves(tree);
    SizeBoundLoop([tree], maxSubsetSize, numSubsets)
  }

  /** On a tidy tree, as dendropy hands it over, `decomposeTree` fails
      exactly when it runs out of splittable trees: no size bound of at
      least 1 and fewer leaves than requested pieces. Its pieces are tidy
      and none is empty. */
  lemma DecomposeTreeOnTidy(tree: Tree, maxSubsetSize: Option<int>, numSubsets: int)
    requires Tidy(tree)
    ensures var r := DecomposeTree(tree, maxSubsetSize, numSubsets);
      && (r.Ok? <==> SizeBoundSafe(tree, maxSubsetSize, numSubsets))
      && (r.Ok? ==> AllTidy(r.value) && NoneEmpty(r.value))
  {
    TidyLeafCount(tree);
    SingletonLeaves(tree);
    assert AllTidy([tree]) && |LeavesOf([tree])| == LeafCount(tree);
    var r := SizeBoundLoop([tree], maxSubsetSize, numSubsets);
    if r.Ok? {
      AllTidyNoneEmpty(r.value);
    }
    assert DecomposeTree(tree, maxSubsetSize, numSubsets) == r;
  }

  // ---------------------------------------------------------------------
  // decomposeTreeNumSubsets

  /** One pass of the `decomposeTreeNumSubsets` loop: sort largest first
      (stably), split `trees[0]`, and continue with `trees[1:] + [t1, t2]`.
      The tree split is the one `max` would pick. */
  function NumSubsetsStep(ts: seq<Tree>): (r: Result<seq<Tree>>)
    requires |ts| > 0
    ensures r.Ok? <==> HasChildren(ts[FirstLargest(ts)])
    ensures r.Err? ==> r.error == NoEdge
    ensures r.Ok? ==> |r.value| == |ts| + 1 && r.value[..|ts| - 1] == SortBySizeDesc(ts)[1..]
    ensures r.Ok? ==>
      var big := ts[FirstLargest(ts)];
      (r.value[|ts| - 1], r.value[|ts|]) == BipartitionByEdge(big, CentroidEdge(big).value)
    ensures r.Ok? ==> multiset(LeavesOf(r.value)) == multiset(LeavesOf(ts))
    ensures LeafCount(ts[FirstLargest(ts)]) >= 2 ==> r.Ok?
  {
    var sorted := SortBySizeDesc(ts);
    SortHeadIsFirstLargest(ts);
    PermutedLeaves(sorted, ts);
    SplitHead(sorted, ts[FirstLargest(ts)], multiset(LeavesOf(ts)));
    SplitAt(sorted, 0)
  }

  /** Splitting the head of a collection: the rest stays in order in front
      of the two halves of the head. */
  lemma SplitHead(s: seq<Tree>, head: Tree, leaves: multiset<Taxon>)
    requires |s| > 0 && s[0] == head && multiset(LeavesOf(s)) == leaves
    ensures SplitAt(s, 0).Ok? <==> HasChildren(head)
    ensures SplitAt(s, 0).Ok? ==> SplitAt(s, 0).value[..|s| - 1] == s[1..]
    ensures SplitAt(s, 0).Ok? ==> multiset(LeavesOf(SplitAt(s, 0).value)) == leaves
    ensures LeafCount(head) >= 2 ==> SplitAt(s, 0).Ok?
  {
    assert s[..0] + s[1..] == s[1..];
  }

  /** One pass over tidy trees keeps them tidy, and fails once every tree
      is down to one leaf. */
  lemma NumSubsetsTidyStep(ts: seq<Tree>)
    requires |ts| > 0
    ensures AllTidy(ts) && NumSubsetsStep(ts).Ok? ==> AllTidy(NumSubsetsStep(ts).value)
    ensures AllTidy(ts) && |ts| >= |LeavesOf(ts)| ==> NumSubsetsStep(ts).Err?
  {
    if AllTidy(ts) {
      var i := FirstLargest(ts);
      TidyLeafCount(ts[i]);
      var sorted := SortBySizeDesc(ts);
      PermutedTidy(ts, sorted);
      SplitKeepsTidy(sorted, 0);
      if |ts| >= |LeavesOf(ts)| {
        AllTidyNoneEmpty(ts);
        OneLeafEach(ts, i);
      }
    }
  }

  lemma PermutedNoneEmpty(a: seq<Tree>, b: seq<Tree>)
    requires multiset(a) == multiset(b) && NoneEmpty(a)
    ensures NoneEmpty(b)
  {
    forall j | 0 <= j < |b|
      ensures LeafCount(b[j]) >= 1
    {
      assert b[j] in multiset(a);
    }
  }

  /** The `while len(trees) < numSubsets` loop of
      `decomposeTreeNumSubsets`, from the collection `ts` on. */
  function NumSubsetsLoop(ts: seq<Tree>, numSubsets: int): (r: Result<seq<Tree>>)
    requires |ts| >= 1
    ensures r.Ok? ==> multiset(LeavesOf(r.value)) == multiset(LeavesOf(ts))
    ensures r.Ok? ==> |r.value| == if |ts| >= numSubsets then |ts| else numSubsets
    ensures r.Err? ==> r.error == NoEdge
    ensures numSubsets <= |LeavesOf(ts)| ==> r.Ok?
    ensures r.Ok? && numSubsets <= |LeavesOf(ts)| && NoneEmpty(ts) ==> NoneEmpty(r.value)
    ensures AllTidy(ts) ==> (r.Ok? <==> numSubsets <= |LeavesOf(ts)| || |ts| >= numSubsets)
    ensures r.Ok? && AllTidy(ts) ==> AllTidy(r.value)
    decreases numSubsets - |ts|
  {
    if |ts| >= numSubsets then Ok(ts)
    else
      LargestHasTwo(ts, FirstLargest(ts));
      NumSubsetsGrowth(ts);
      NumSubsetsTidyStep(ts);
      var next :- NumSubsetsStep(ts);
      NumSubsetsLoop(next, numSubsets)
  }

  /** What the loop needs of one pass: more trees, the same leaves, and no
      tree emptied. */
  lemma NumSubsetsGrowth(ts: seq<Tree>)
    requires |ts| > 0
    ensures var r := NumSubsetsStep(ts);
      r.Ok? ==> |r.value| == |ts| + 1 && |LeavesOf(r.value)| == |LeavesOf(ts)|
    ensures NoneEmpty(ts) && |ts| < |LeavesOf(ts)| ==>
      NumSubsetsStep(ts).Ok? && NoneEmpty(NumSubsetsStep(ts).value)
  {
    var r := NumSubsetsStep(ts);
    if r.Ok? {
      assert |LeavesOf(r.value)| == |multiset(LeavesOf(r.value))| == |LeavesOf(ts)|;
    }
    if NoneEmpty(ts) && |ts| < |LeavesOf(ts)| {
      NumSubsetsKeepsNoneEmpty(ts);
    }
  }

  /** A pass that splits a tree of two or more leaves empties no tree. */
  lemma NumSubsetsKeepsNoneEmpty(ts: seq<Tree>)
    requires |ts| > 0 && NoneEmpty(ts) && |ts| < |LeavesOf(ts)|
    ensures NumSubsetsStep(ts).Ok? && NoneEmpty(NumSubsetsStep(ts).value)
  {
    LargestHasTwo(ts, FirstLargest(ts));
    var sorted := SortBySizeDesc(ts);
    SortHeadIsFirstLargest(ts);
    PermutedNoneEmpty(ts, sorted);
    SplitKeepsNoneEmpty(sorted, 0);
  }

  /** `decomposeTreeNumSubsets(tree, numSubsets)`: exactly `numSubsets`
      pieces (one when `numSubsets` is below 2), which cannot fail when the
      tree has at least `numSubsets` leaves. */
  function DecomposeTreeNumSubsets(tree: Tree, numSubsets: int): (r: Result<seq<Tree>>)
    ensures r.Ok? ==> |r.value| == TargetCount(numSubsets)
    ensures r.Ok? ==> Partitions(r.value, tree)
    ensures r.Err? ==> r.error == NoEdge
    ensures numSubsets <= LeafCount(tree) ==> r.Ok?
    ensures r.Ok? && numSubsets <= LeafCount(tree) && LeafCount(tree) >= 1 ==> NoneEmpty(r.value)
  {
    SingletonLeaves(tree);
    NumSubsetsLoop([tree], numSubsets)
  }

  /** On a tidy tree `decomposeTreeNumSubsets` fails exactly when more
      pieces are requested than the tree has leaves; its pieces are tidy,
      so none is empty and the sort key `len(leaf_nodes())` is each
      piece's labelled-leaf count throughout. */
  lemma NumSubsetsOnTidy(tree: Tree, numSubsets: int)
    requires Tidy(tree)
    ensures var r := DecomposeTreeNumSubsets(tree, numSubsets);
      && (r.Ok? <==> numSubsets <= LeafCount(tree))
      && (r.Ok? ==> AllTidy(r.value) && NoneEmpty(r.value))
  {
    TidyLeafCount(tree);
    SingletonLeaves(tree);
    assert AllTidy([tree]) && |LeavesOf([tree])| == LeafCount(tree);
    var r := NumSubsetsLoop([tree], numSubsets);
    if r.Ok? {
      AllTidyNoneEmpty(r.value);
    }
    assert DecomposeTreeNumSubsets(tree, numSubsets) == r;
  }

  // ---------------------------------------------------------------------
  // The two count-driven drivers agree

  /** Agreeing collections have the same first largest tree, and it heads
      the sorted one. */
  lemma SameLargest(a: seq<Tree>, b: seq<Tree>)
    requires |a| > 0 && SameClasses(a, b)
    ensures |b| == |a|
    ensures b[FirstLargest(b)] == a[FirstLargest(a)]
    ensures SameClasses(a, SortBySizeDesc(b)) && SortBySizeDesc(b)[0] == a[FirstLargest(a)]
  {
    assert |b| == |multiset(b)| == |multiset(a)| == |a|;
    var i, j := FirstLargest(a), FirstLargest(b);
    assert a[i] in multiset(b);
    assert b[j] in multiset(a);
    var c := LeafCount(a[i]);
    assert LeafCount(b[j]) == c;
    HavingHead(c, a, i);
    HavingHead(c, b, j);
    SortHeadIsFirstLargest(b);
  }

  /** Taking the first largest tree out of agreeing collections keeps them
      agreeing. */
  lemma DropAgree(a: seq<Tree>, i: nat, s: seq<Tree>)
    requires i < |a| && 0 < |s| && SameClasses(a, s) && a[i] == s[0]
    requires forall j :: 0 <= j < i ==> LeafCount(a[j]) != LeafCount(a[i])
    ensures SameClasses(a[..i] + a[i + 1..], s[1..])
  {
    var ra, rs := a[..i] + a[i + 1..], s[1..];
    TailPermuted(s, a, i);
    forall c ensures Having(c, ra) == Having(c, rs) {
      assert Having(c, a) == Having(c, s);
      HavingRemoveFirst(c, a, i);
      HavingRemoveFirst(c, s, 0);
      assert s[..0] + s[1..] == rs;
    }
  }

  lemma AppendAgree(a: seq<Tree>, b: seq<Tree>, u: seq<Tree>)
    requires SameClasses(a, b)
    ensures SameClasses(a + u, b + u)
  {
    forall c ensures Having(c, a + u) == Having(c, b + u) {
      HavingConcat(c, a, u);
      HavingConcat(c, b, u);
    }
  }

  /** From agreeing collections, a pass of `decomposeTree` without a size
      bound and a pass of `decomposeTreeNumSubsets` split the same tree and
      again give agreeing collections. */
  lemma StepsAgree(a: seq<Tree>, b: seq<Tree>)
    requires |a| > 0 && SameClasses(a, b)
    ensures |b| == |a|
    ensures SizeBoundStep(a, None).Ok? <==> NumSubsetsStep(b).Ok?
    ensures SizeBoundStep(a, None).Ok? ==>
      SizeBoundStep(a, None).value.Grown? && SameClasses(SizeBoundStep(a, None).value.pieces, NumSubsetsStep(b).value)
  {
    SameLargest(a, b);
    var i := FirstLargest(a);
    var sorted := SortBySizeDesc(b);
    if SizeBoundStep(a, None).Ok? {
      var a', b' := SizeBoundStep(a, None).value.pieces, NumSubsetsStep(b).value;
      var halves := BipartitionByEdge(a[i], CentroidEdge(a[i]).value);
      var pair := [halves.0, halves.1];
      assert a' == a'[..|a| - 1] + pair;
      assert b' == b'[..|a| - 1] + pair;
      DropAgree(a, i, sorted);
      AppendAgree(a[..i] + a[i + 1..], sorted[1..], pair);
    }
  }

  /** The loops of the two drivers, started from agreeing collections,
      fail together or end in agreeing collections. */
  lemma {:induction false} LoopsAgree(a: seq<Tree>, b: seq<Tree>, numSubsets: int)
    requires |a| > 0 && SameClasses(a, b)
    ensures |b| > 0
    ensures SizeBoundLoop(a, None, numSubsets).Ok? <==> NumSubsetsLoop(b, numSubsets).Ok?
    ensures SizeBoundLoop(a, None, numSubsets).Ok? ==>
      SameClasses(SizeBoundLoop(a, None, numSubsets).value, NumSubsetsLoop(b, numSubsets).value)
    decreases numSubsets - |a|
  {
    StepsAgree(a, b);
    if |a| < numSubsets && SizeBoundStep(a, None).Ok? {
      LoopsAgree(SizeBoundStep(a, None).value.pieces, NumSubsetsStep(b).value, numSubsets);
    }
  }

  /** Without a size bound, `decomposeTree` and `decomposeTreeNumSubsets`
      produce the same subtrees: they fail on the same inputs, and
      otherwise return the same trees, listing trees of equal leaf count in
      the same order. */
  lemma DriversAgree(tree: Tree, numSubsets: int)
    ensures DecomposeTree(tree, None, numSubsets).Ok? <==> DecomposeTreeNumSubsets(tree, numSubsets).Ok?
    ensures DecomposeTree(tree, None, numSubsets).Ok? ==>
      SameClasses(DecomposeTree(tree, None, numSubsets).value, DecomposeTreeNumSubsets(tree, numSubsets).value)
  {
    LoopsAgree([tree], [tree], numSubsets);
  }

  // ---------------------------------------------------------------------
  // decomposeTreeMaxSubsetSize

  /** The `mode` argument: "centroid", or "random" together with the source
      of the random draws, a number for each tree that is split. */
  datatype Mode = ByCentroid | AtRandom(draw: Tree -> nat)

  /** The edge `decomposeTreeMaxSubsetSize` splits at: the centroid edge,
      or a random edge with at least `maxSubsetSize / 3` leaves each side. */
  function SelectEdge(t: Tree, maxSubsetSize: int, mode: Mode): (r: Result<Path>)
    ensures r.Ok? ==> IsEdge(t, r.value)
    ensures mode.ByCentroid? ==> r == CentroidEdge(t)
    ensures mode.AtRandom? ==> r.Err? || Eligible(t, r.value, MinBound(maxSubsetSize, 3))
    ensures r.Err? ==> r.error == (if mode.ByCentroid? then NoEdge else NoEligibleEdge)
  {
    match mode
    case ByCentroid => CentroidEdge(t)
    case AtRandom(draw) => CentroidEdgeRandom(t, MinBound(maxSubsetSize, 3), draw(t))
  }

  /** `decomposeTreeMaxSubsetSize(tree, maxSubsetSize, mode)`: a tree within
      the bound is its own piece; otherwise it is split (at its centroid
      edge, or at a random edge leaving at least `maxSubsetSize / 3`
      leaves on each side) and the pieces of the remaining tree come before
      those of the detached one. Each split strictly lowers the node count,
      so the recursion ends in every mode. */
  function DecomposeMaxSize(t: Tree, maxSubsetSize: int, mode: Mode): (r: Result<seq<Tree>>)
    ensures LeafCount(t) <= maxSubsetSize ==> r == Ok([t])
    ensures r.Ok? ==> |r.value| >= 1 && Partitions(r.value, t)
    ensures r.Ok? ==> AllWithin(r.value, maxSubsetSize)
    ensures mode.ByCentroid? && maxSubsetSize >= 1 ==> r.Ok?
    ensures mode.ByCentroid? && maxSubsetSize >= 1 && LeafCount(t) >= 1 ==> NoneEmpty(r.value)
    ensures r.Err? ==> r.error == (if mode.ByCentroid? then NoEdge else NoEligibleEdge)
    ensures mode.AtRandom? && r.Ok? && LeafCount(t) > maxSubsetSize ==> AllAtLeastThird(r.value, maxSubsetSize)
    ensures mode.AtRandom? && r.Ok? && 3 * LeafCount(t) >= maxSubsetSize ==> AllAtLeastThird(r.value, maxSubsetSize)
    ensures r.Ok? && LeafCount(t) > maxSubsetSize ==>
      && SelectEdge(t, maxSubsetSize, mode).Ok?
      && var halves := BipartitionByEdge(t, SelectEdge(t, maxSubsetSize, mode).value);
         InTwoRuns(r.value, halves.0, halves.1)
    decreases NodeCount(t)
  {
    if LeafCount(t) <= maxSubsetSize then
      SingletonLeaves(t);
      Ok([t])
    else
      match SelectEdge(t, maxSubsetSize, mode)
      case Err(e) => Err(e)
      case Ok(e) =>
        SelectedHalves(t, maxSubsetSize, mode);
        Join(t, BipartitionByEdge(t, e), maxSubsetSize, mode)
  }

  /** The halves of the edge selected in a tree over the bound: each has
      fewer nodes, together they hold the tree's leaves, neither is empty
      in centroid mode, and in random mode each keeps a third of the bound. */
  lemma SelectedHalves(t: Tree, maxSubsetSize: int, mode: Mode)
    requires LeafCount(t) > maxSubsetSize && SelectEdge(t, maxSubsetSize, mode).Ok?
    ensures var halves := BipartitionByEdge(t, SelectEdge(t, maxSubsetSize, mode).value);
      && NodeCount(halves.0) < NodeCount(t) && NodeCount(halves.1) < NodeCount(t)
      && multiset(Leaves(halves.0)) + multiset(Leaves(halves.1)) == multiset(Leaves(t))
      && (mode.ByCentroid? && maxSubsetSize >= 1 ==> LeafCount(halves.0) >= 1 && LeafCount(halves.1) >= 1)
      && (mode.AtRandom? ==> 3 * LeafCount(halves.0) >= maxSubsetSize && 3 * LeafCount(halves.1) >= maxSubsetSize)
  {
    if mode.ByCentroid? && maxSubsetSize >= 1 {
      CentroidNontrivial(t);
    }
  }

  /** The pieces of both halves, remaining tree first. */
  function Join(t: Tree, halves: (Tree, Tree), maxSubsetSize: int, mode: Mode): (r: Result<seq<Tree>>)
    requires NodeCount(halves.0) < NodeCount(t) && NodeCount(halves.1) < NodeCount(t)
    requires multiset(Leaves(halves.0)) + multiset(Leaves(halves.1)) == multiset(Leaves(t))
    ensures r.Ok? ==> |r.value| >= 1 && Partitions(r.value, t)
    ensures r.Ok? ==> AllWithin(r.value, maxSubsetSize)
    ensures mode.ByCentroid? && maxSubsetSize >= 1 ==> r.Ok?
    ensures mode.ByCentroid? && maxSubsetSize >= 1 && LeafCount(halves.0) >= 1 && LeafCount(halves.1) >= 1 ==>
      NoneEmpty(r.value)
    ensures r.Err? ==> r.error == (if mode.ByCentroid? then NoEdge else NoEligibleEdge)
    ensures mode.AtRandom? && r.Ok? ==>
      (3 * LeafCount(halves.0) >= maxSubsetSize && 3 * LeafCount(halves.1) >= maxSubsetSize ==>
         AllAtLeastThird(r.value, maxSubsetSize))
    ensures r.Ok? ==> InTwoRuns(r.value, halves.0, halves.1)
    decreases NodeCount(t), 0
  {
    var left :- DecomposeMaxSize(halves.0, maxSubsetSize, mode);
    var right :- DecomposeMaxSize(halves.1, maxSubsetSize, mode);
    JoinPieces(t, halves.0, halves.1, left, right);
    ConcatPieces(left, right, maxSubsetSize);
    assert (left + right)[..|left|] == left && (left + right)[|left|..] == right;
    Ok(left + right)
  }

  /** On a tidy tree, by centroid, `decomposeTreeMaxSubsetSize` fails
      exactly when the bound is below 1: some piece then comes down to a
      single leaf, which has no edge to split. In every mode the pieces of
      a tidy tree are tidy. */
  lemma {:induction false} MaxSizeOnTidy(t: Tree, maxSubsetSize: int, mode: Mode)
    requires Tidy(t)
    ensures var r := DecomposeMaxSize(t, maxSubsetSize, mode);
      && (mode.ByCentroid? ==> (r.Ok? <==> maxSubsetSize >= 1))
      && (r.Ok? ==> AllTidy(r.value))
    decreases NodeCount(t)
  {
    TidyLeafCount(t);
    var r := DecomposeMaxSize(t, maxSubsetSize, mode);
    if LeafCount(t) > maxSubsetSize {
      var sel := SelectEdge(t, maxSubsetSize, mode);
      if sel.Ok? {
        var halves := BipartitionByEdge(t, sel.value);
        assert r == Join(t, halves, maxSubsetSize, mode);
        var left, right := DecomposeMaxSize(halves.0, maxSubsetSize, mode), DecomposeMaxSize(halves.1, maxSubsetSize, mode);
        MaxSizeOnTidy(halves.0, maxSubsetSize, mode);
        MaxSizeOnTidy(halves.1, maxSubsetSize, mode);
        if left.Ok? && right.Ok? {
          assert r == Ok(left.value + right.value);
          ConcatPieces(left.value, right.value, maxSubsetSize);
        }
      }
    }
  }

  /** Partitions of the two halves make a partition of the whole. */
  lemma JoinPieces(t: Tree, a: Tree, b: Tree, left: seq<Tree>, right: seq<Tree>)
    requires multiset(Leaves(a)) + multiset(Leaves(b)) == multiset(Leaves(t))
    requires Partitions(left, a) && Partitions(right, b)
    ensures Partitions(left + right, t)
  {
    LeavesOfConcat(left, right);
  }

  /** A piece count lower bound: pieces of at most `maxSubsetSize` leaves
      must number at least n / maxSubsetSize. */
  lemma PieceCountBound(t: Tree, maxSubsetSize: int, mode: Mode)
    requires maxSubsetSize >= 1
    ensures var r := DecomposeMaxSize(t, maxSubsetSize, mode);
      r.Ok? ==> |r.value| * maxSubsetSize >= LeafCount(t)
  {
    var r := DecomposeMaxSize(t, maxSubsetSize, mode);
    if r.Ok? {
      PartitionCount(r.value, t, maxSubsetSize);
    }
  }
}

=== FILE: forests.dfy ===
/**
 * Facts about the working collection of trees the decomposition drivers
 * keep: its leaves taken together, and when those leaves partition the
 * input tree's leaves.
 */
module Forests {
  import opened Trees

  /** The pieces together hold exactly the leaves of `t`, each as often as
      `t` does: nothing lost, nothing duplicated. */
  predicate Partitions(pieces: seq<Tree>, t: Tree)
  {
    multiset(LeavesOf(pieces)) == multiset(Leaves(t))
  }

  predicate AllWithin(ts: seq<Tree>, m: int)
  {
    forall j :: 0 <= j < |ts| ==> LeafCount(ts[j]) <= m
  }

  predicate NoneEmpty(ts: seq<Tree>)
  {
    forall j :: 0 <= j < |ts| ==> LeafCount(ts[j]) >= 1
  }

  /** Every tree keeps at least a third of `m` leaves. */
  predicate AllAtLeastThird(ts: seq<Tree>, m: int)
  {
    forall j :: 0 <= j < |ts| ==> 3 * LeafCount(ts[j]) >= m
  }

  /** Every tree of the collection is tidy, as dendropy keeps them. */
  predicate AllTidy(ts: seq<Tree>)
  {
    forall j :: 0 <= j < |ts| ==> Tidy(ts[j])
  }

  /** The pieces are a partition of `a` followed by a partition of `b`. */
  predicate InTwoRuns(pieces: seq<Tree>, a: Tree, b: Tree)
  {
    exists k :: 0 <= k <= |pieces| && (Partitions(pieces[..k], a) && Partitions(pieces[k..], b))
  }

  /** No leaf lies in two different pieces. */
  predicate PairwiseDisjoint(pieces: seq<Tree>)
  {
    forall i, j, x :: 0 <= i < j < |pieces| && x in Leaves(pieces[i]) ==> x !in Leaves(pieces[j])
  }

  lemma SingletonLeaves(t: Tree)
    ensures LeavesOf([t]) == Leaves(t)
  {
    assert [t][1..] == [];
  }

  /** A forest of trees with at most `m` leaves each has at most `m` leaves
      per tree in all. */
  lemma {:induction false} LeavesOfBound(ts: seq<Tree>, m: nat)
    requires AllWithin(ts, m)
    ensures |LeavesOf(ts)| <= m * |ts|
    decreases |ts|
  {
    if |ts| > 0 {
      assert AllWithin(ts[1..], m);
      LeavesOfBound(ts[1..], m);
    }
  }

  /** Pieces of at most `m` leaves that partition `t` number at least
      LeafCount(t) / m. */
  lemma PartitionCount(ps: seq<Tree>, t: Tree, m: nat)
    requires Partitions(ps, t) && AllWithin(ps, m)
    ensures |ps| * m >= LeafCount(t)
  {
    LeavesOfBound(ps, m);
    assert |LeavesOf(ps)| == |multiset(LeavesOf(ps))| == |multiset(Leaves(t))| == LeafCount(t);
  }

  /** Pigeonhole: fewer trees than leaves means the largest tree has at
      least two leaves. */
  lemma LargestHasTwo(ts: seq<Tree>, i: nat)
    requires i < |ts|
    requires forall j :: 0 <= j < |ts| ==> LeafCount(ts[j]) <= LeafCount(ts[i])
    ensures |ts| < |LeavesOf(ts)| ==> LeafCount(ts[i]) >= 2
  {
    if LeafCount(ts[i]) <= 1 {
      LeavesOfBound(ts, 1);
    }
  }

  /** A forest of non-empty trees has at least one leaf per tree. */
  lemma {:induction false} LeavesOfAbove(ts: seq<Tree>)
    requires NoneEmpty(ts)
    ensures |LeavesOf(ts)| >= |ts|
    decreases |ts|
  {
    if |ts| > 0 {
      assert NoneEmpty(ts[1..]);
      LeavesOfAbove(ts[1..]);
    }
  }

  /** The converse pigeonhole: non-empty trees no fewer than their leaves
      hold one leaf each. */
  lemma OneLeafEach(ts: seq<Tree>, i: nat)
    requires i < |ts| && NoneEmpty(ts) && |ts| >= |LeavesOf(ts)|
    ensures LeafCount(ts[i]) == 1
  {
    LeavesOfAround(ts, i);
    assert NoneEmpty(ts[..i]) && NoneEmpty(ts[i + 1..]);
    LeavesOfAbove(ts[..i]);
    LeavesOfAbove(ts[i + 1..]);
  }

  /** Tidy trees are never empty. */
  lemma AllTidyNoneEmpty(ts: seq<Tree>)
    requires AllTidy(ts)
    ensures NoneEmpty(ts)
  {
    forall j | 0 <= j < |ts| ensures LeafCount(ts[j]) >= 1 {
      TidyLeafCount(ts[j]);
    }
  }

  /** In a collection of tidy trees, the length of `leaf_nodes()` that the
      sort key reads is each tree's labelled-leaf count. */
  lemma TidyKeys(ts: seq<Tree>)
    requires AllTidy(ts)
    ensures forall j :: 0 <= j < |ts| ==> LeafNodeCount(ts[j]) == LeafCount(ts[j])
  {
    forall j | 0 <= j < |ts| ensures LeafNodeCount(ts[j]) == LeafCount(ts[j]) {
      TidyLeafNodes(ts[j]);
    }
  }

  /** Tidiness depends on the trees, not on their order. */
  lemma PermutedTidy(a: seq<Tree>, b: seq<Tree>)
    requires multiset(a) == multiset(b) && AllTidy(a)
    ensures AllTidy(b)
  {
    forall j | 0 <= j < |b| ensures Tidy(b[j]) {
      assert b[j] in multiset(a);
    }
  }

  /** Taking the `k`-th tree out of a forest takes out its leaves. */
  lemma RemoveOne(b: seq<Tree>, k: nat)
    requires k < |b|
    ensures multiset(b[..k] + b[k + 1..]) + multiset{b[k]} == multiset(b)
    ensures multiset(LeavesOf(b[..k] + b[k + 1..])) + multiset(Leaves(b[k])) == multiset(LeavesOf(b))
  {
    RemoveOneTrees(b, k);
    RemoveOneLeaves(b, k);
  }

  lemma RemoveOneTrees(b: seq<Tree>, k: nat)
    requires k < |b|
    ensures multiset(b[..k] + b[k + 1..]) + multiset{b[k]} == multiset(b)
  {
    var pre, post := b[..k], b[k + 1..];
    assert b == pre + [b[k]] + post;
  }

  lemma RemoveOneLeaves(b: seq<Tree>, k: nat)
    requires k < |b|
    ensures multiset(LeavesOf(b[..k] + b[k + 1..])) + multiset(Leaves(b[k])) == multiset(LeavesOf(b))
  {
    var pre, post := b[..k], b[k + 1..];
    LeavesOfAround(b, k);
    LeavesOfConcat(pre, post);
    var lp, lx, lq := LeavesOf(pre), Leaves(b[k]), LeavesOf(post);
    assert multiset(lp + lx + lq) == multiset(lp) + multiset(lx) + multiset(lq);
    assert multiset(lp + lq) == multiset(lp) + multiset(lq);
  }

  /** The pieces of two collections, one after the other. */
  lemma ConcatPieces(a: seq<Tree>, b: seq<Tree>, m: int)
    ensures multiset(LeavesOf(a + b)) == multiset(LeavesOf(a)) + multiset(LeavesOf(b))
    ensures AllWithin(a, m) && AllWithin(b, m) ==> AllWithin(a + b, m)
    ensures NoneEmpty(a) && NoneEmpty(b) ==> NoneEmpty(a + b)
    ensures AllAtLeastThird(a, m) && AllAtLeastThird(b, m) ==> AllAtLeastThird(a + b, m)
    ensures AllTidy(a) && AllTidy(b) ==> AllTidy(a + b)
  {
    LeavesOfConcat(a, b);
    assert forall j :: 0 <= j < |a + b| ==> (a + b)[j] == if j < |a| then a[j] else b[j - |a|];
  }

  /** Matching the head of `a` with a tree of `b` leaves two permutations
      of each other. */
  lemma TailPermuted(a: seq<Tree>, b: seq<Tree>, k: nat)
    requires multiset(a) == multiset(b) && 0 < |a| && k < |b| && b[k] == a[0]
    ensures multiset(a[1..]) == multiset(b[..k] + b[k + 1..])
  {
    RemoveOneTrees(b, k);
    assert a == [a[0]] + a[1..];
    assert multiset(a[1..]) == multiset(a) - multiset{a[0]};
  }

  /** Reordering the trees reorders the leaves and changes none of them. */
  lemma {:induction false} PermutedLeaves(a: seq<Tree>, b: seq<Tree>)
    requires multiset(a) == multiset(b)
    ensures multiset(LeavesOf(a)) == multiset(LeavesOf(b))
    decreases |a|
  {
    if |a| == 0 {
      assert |b| == |multiset(b)| == 0;
    } else {
      assert a[0] in multiset(b);
      var k :| 0 <= k < |b| && b[k] == a[0];
      TailPermuted(a, b, k);
      PermutedLeaves(a[1..], b[..k] + b[k + 1..]);
      RemoveOne(b, k);
    }
  }

  /** Replacing `ts[i]` by two non-empty trees at the end keeps a
      collection of non-empty trees non-empty. */
  lemma ReplaceNoneEmpty(ts: seq<Tree>, i: nat, r: seq<Tree>)
    requires i < |ts| && NoneEmpty(ts)
    requires |r| == |ts| + 1 && r[..|ts| - 1] == ts[..i] + ts[i + 1..]
    requires LeafCount(r[|ts| - 1]) >= 1 && LeafCount(r[|ts|]) >= 1
    ensures NoneEmpty(r)
  {
    forall j | 0 <= j < |ts| - 1 ensures LeafCount(r[j]) >= 1 {
      assert r[j] == r[..|ts| - 1][j];
    }
  }

  /** Replacing `ts[i]` by two tidy trees at the end keeps a collection of
      tidy trees tidy. */
  lemma ReplaceTidy(ts: seq<Tree>, i: nat, r: seq<Tree>)
    requires i < |ts| && AllTidy(ts)
    requires |r| == |ts| + 1 && r[..|ts| - 1] == ts[..i] + ts[i + 1..]
    requires Tidy(r[|ts| - 1]) && Tidy(r[|ts|])
    ensures AllTidy(r)
  {
    forall j | 0 <= j < |ts| - 1 ensures Tidy(r[j]) {
      assert r[j] == r[..|ts| - 1][j];
    }
  }

  /** Removing the `i`-th tree and appending two trees that hold exactly
      its leaves leaves the forest's leaves unchanged. */
  lemma ReplaceLeaves(ts: seq<Tree>, i: nat, x: Tree, y: Tree)
    requires i < |ts|
    requires multiset(Leaves(x)) + multiset(Leaves(y)) == multiset(Leaves(ts[i]))
    ensures multiset(LeavesOf(ts[..i] + ts[i + 1..] + [x, y])) == multiset(LeavesOf(ts))
  {
    LeavesOfAround(ts, i);
    LeavesOfConcat(ts[..i] + ts[i + 1..], [x, y]);
    LeavesOfConcat(ts[..i], ts[i + 1..]);
    assert [x, y][1..] == [y];
    SingletonLeaves(y);
    var p, q := LeavesOf(ts[..i]), LeavesOf(ts[i + 1..]);
    assert LeavesOf(ts[..i] + ts[i + 1..] + [x, y]) == p + q + (Leaves(x) + Leaves(y));
    assert LeavesOf(ts) == p + Leaves(ts[i]) + q;
  }

  lemma {:induction false} DistinctAtMostOnce(s: seq<Taxon>, x: Taxon)
    requires Distinct(s)
    ensures multiset(s)[x] <= 1
    decreases |s|
  {
    if |s| > 0 {
      assert s == [s[0]] + s[1..];
      DistinctAtMostOnce(s[1..], x);
      assert s[0] !in s[1..];
    }
  }

  lemma TwoPieces(ps: seq<Tree>, i: nat, j: nat)
    requires i < j < |ps|
    ensures multiset(Leaves(ps[i])) + multiset(Leaves(ps[j])) <= multiset(LeavesOf(ps))
  {
    var tail, k := ps[i + 1..], j - i - 1;
    assert tail[k] == ps[j];
    LeavesOfAround(tail, k);
    LeavesOfAround(ps, i);
    var a, b, c := LeavesOf(tail[..k]), LeavesOf(tail[k + 1..]), LeavesOf(ps[..i]);
    var li, lj := Leaves(ps[i]), Leaves(ps[j]);
    assert multiset(LeavesOf(tail)) == multiset(a) + multiset(lj) + multiset(b);
    assert multiset(LeavesOf(ps)) == multiset(c) + multiset(li) + multiset(LeavesOf(tail));
  }

  lemma {:induction false} LeavesOfMembers(ps: seq<Tree>, x: Taxon)
    ensures x in LeavesOf(ps) <==> exists i :: 0 <= i < |ps| && x in Leaves(ps[i])
    decreases |ps|
  {
    if |ps| > 0 {
      LeavesOfMembers(ps[1..], x);
      if x in LeavesOf(ps[1..]) {
        var i :| 0 <= i < |ps[1..]| && x in Leaves(ps[1..][i]);
        assert ps[i + 1] == ps[1..][i];
      }
      if exists i :: 0 <= i < |ps| && x in Leaves(ps[i]) {
        var i :| 0 <= i < |ps| && x in Leaves(ps[i]);
        if i > 0 {
          assert ps[1..][i - 1] == ps[i];
        }
      }
    }
  }

  /** With distinct taxa, a partition of the leaves is a partition in the
      set sense: the pieces share no leaf and together hold every leaf. */
  lemma PartitionDisjoint(pieces: seq<Tree>, t: Tree)
    requires Partitions(pieces, t) && Distinct(Leaves(t))
    ensures PairwiseDisjoint(pieces)
    ensures forall x :: x in Leaves(t) <==> exists i :: 0 <= i < |pieces| && x in Leaves(pieces[i])
  {
    forall i, j, x | 0 <= i < j < |pieces| && x in Leaves(pieces[i])
      ensures x !in Leaves(pieces[j])
    {
      TwoPieces(pieces, i, j);
      DistinctAtMostOnce(Leaves(t), x);
    }
    forall x
      ensures x in Leaves(t) <==> exists i :: 0 <= i < |pieces| && x in Leaves(pieces[i])
    {
      LeavesOfMembers(pieces, x);
      assert x in Leaves(t) <==> x in multiset(Leaves(t));
      assert x in LeavesOf(pieces) <==> x in multiset(LeavesOf(pieces));
    }
  }
}

=== FILE: ordering.dfy ===
/**
 * How the drivers pick the tree to split: Python's `max` by leaf count,
 * which keeps the first of several equally large trees, and the stable
 * `sort(key=leaf count, reverse=True)`.
 */
module Ordering {
  import opened Trees

  /** `max(trees, key=leaf count)` as an index: a tree of greatest leaf
      count that comes before every other tree of that count. */
  function FirstLargest(ts: seq<Tree>): (i: nat)
    requires |ts| > 0
    ensures i < |ts|
    ensures forall j :: 0 <= j < |ts| ==> LeafCount(ts[j]) <= LeafCount(ts[i])
    ensures forall j :: 0 <= j < i ==> LeafCount(ts[j]) < LeafCount(ts[i])
  {
    LargestFrom(ts, 1, 0)
  }

  /** The scan inside `max`: `best` is replaced only by a strictly larger tree. */
  function LargestFrom(ts: seq<Tree>, j: nat, best: nat): (i: nat)
    requires best < j <= |ts|
    requires forall m :: 0 <= m < j ==> LeafCount(ts[m]) <= LeafCount(ts[best])
    requires forall m :: 0 <= m < best ==> LeafCount(ts[m]) < LeafCount(ts[best])
    ensures i < |ts|
    ensures forall m :: 0 <= m < |ts| ==> LeafCount(ts[m]) <= LeafCount(ts[i])
    ensures forall m :: 0 <= m < i ==> LeafCount(ts[m]) < LeafCount(ts[i])
    decreases |ts| - j
  {
    if j == |ts| then best
    else if LeafCount(ts[j]) > LeafCount(ts[best]) then LargestFrom(ts, j + 1, j)
    else LargestFrom(ts, j + 1, best)
  }

  predicate SortedDesc(s: seq<Tree>)
  {
    forall i, j :: 0 <= i < j < |s| ==> LeafCount(s[i]) >= LeafCount(s[j])
  }

  /** The trees of `s` with exactly `c` leaves, in their order in `s`. */
  function Having(c: nat, s: seq<Tree>): seq<Tree>
  {
    if |s| == 0 then []
    else (if LeafCount(s[0]) == c then [s[0]] else []) + Having(c, s[1..])
  }

  /** Places `x` after every tree of `s` with more leaves and before the
      first with as many or fewer: `x` came first in the input, so it stays
      ahead of its equals. */
  function Insert(x: Tree, s: seq<Tree>): seq<Tree>
  {
    if |s| == 0 || LeafCount(s[0]) <= LeafCount(x) then [x] + s
    else [s[0]] + Insert(x, s[1..])
  }

  lemma {:induction false} InsertPermutes(x: Tree, s: seq<Tree>)
    ensures multiset(Insert(x, s)) == multiset(s) + multiset{x}
    decreases |s|
  {
    if |s| > 0 && LeafCount(s[0]) > LeafCount(x) {
      InsertPermutes(x, s[1..]);
      assert s == [s[0]] + s[1..];
    }
  }

  /** A tree at least as large as every tree of a sorted list can go in
      front of it. */
  lemma ConsSorted(x: Tree, s: seq<Tree>)
    requires SortedDesc(s)
    requires forall j :: 0 <= j < |s| ==> LeafCount(s[j]) <= LeafCount(x)
    ensures SortedDesc([x] + s)
  {
    var r := [x] + s;
    forall i, j | 0 <= i < j < |r|
      ensures LeafCount(r[i]) >= LeafCount(r[j])
    {
      assert r[j] == s[j - 1];
      if i > 0 {
        assert r[i] == s[i - 1];
      }
    }
  }

  lemma {:induction false} InsertSorted(x: Tree, s: seq<Tree>)
    requires SortedDesc(s)
    ensures SortedDesc(Insert(x, s))
    decreases |s|
  {
    if |s| == 0 || LeafCount(s[0]) <= LeafCount(x) {
      ConsSorted(x, s);
    } else {
      var tail := Insert(x, s[1..]);
      InsertSorted(x, s[1..]);
      InsertPermutes(x, s[1..]);
      forall j | 0 <= j < |tail|
        ensures LeafCount(tail[j]) <= LeafCount(s[0])
      {
        assert tail[j] in multiset(tail);
        if tail[j] != x {
          assert tail[j] in multiset(s[1..]);
          var m :| 0 <= m < |s[1..]| && s[1..][m] == tail[j];
          assert s[m + 1] == tail[j];
        }
      }
      ConsSorted(s[0], tail);
    }
  }

  lemma {:induction false} InsertStable(x: Tree, s: seq<Tree>, c: nat)
    requires SortedDesc(s)
    ensures Having(c, Insert(x, s)) ==
      (if LeafCount(x) == c then [x] + Having(c, s) else Having(c, s))
    decreases |s|
  {
    var r := Insert(x, s);
    if |s| == 0 || LeafCount(s[0]) <= LeafCount(x) {
      assert r[0] == x && r[1..] == s;
    } else {
      var tail := Insert(x, s[1..]);
      assert SortedDesc(s[1..]);
      InsertStable(x, s[1..], c);
      assert r[0] == s[0] && r[1..] == tail;
      var head := if LeafCount(s[0]) == c then [s[0]] else [];
      assert Having(c, r) == head + Having(c, tail);
      assert Having(c, s) == head + Having(c, s[1..]);
      if LeafCount(x) == c {
        // s[0] has more leaves than x, so it does not have c of them
        assert head == [];
      }
    }
  }

  /** `trees.sort(key=leaf count, reverse=True)`: a stable sort by
      decreasing leaf count. */
  function SortBySizeDesc(ts: seq<Tree>): (r: seq<Tree>)
    ensures multiset(r) == multiset(ts)
    ensures SortedDesc(r)
    ensures forall c :: Having(c, r) == Having(c, ts)
  {
    if |ts| == 0 then []
    else
      var rest := SortBySizeDesc(ts[1..]);
      InsertPermutes(ts[0], rest);
      InsertSorted(ts[0], rest);
      assert forall c :: Having(c, Insert(ts[0], rest)) == Having(c, ts) by {
        forall c ensures Having(c, Insert(ts[0], rest)) == Having(c, ts) {
          InsertStable(ts[0], rest, c);
        }
      }
      assert ts == [ts[0]] + ts[1..];
      Insert(ts[0], rest)
  }

  /** The first tree of `s` with `c` leaves heads `Having(c, s)`. */
  lemma {:induction false} HavingHead(c: nat, s: seq<Tree>, i: nat)
    requires i < |s| && LeafCount(s[i]) == c
    requires forall j :: 0 <= j < i ==> LeafCount(s[j]) != c
    ensures |Having(c, s)| > 0 && Having(c, s)[0] == s[i]
    decreases i
  {
    if i > 0 {
      HavingHead(c, s[1..], i - 1);
    }
  }

  /** Sorting and `max` agree: the head of the sorted list is the first
      largest tree, so both count-driven drivers split the same tree. */
  lemma SortHeadIsFirstLargest(ts: seq<Tree>)
    requires |ts| > 0
    ensures |SortBySizeDesc(ts)| == |ts|
    ensures SortBySizeDesc(ts)[0] == ts[FirstLargest(ts)]
  {
    var r := SortBySizeDesc(ts);
    var i := FirstLargest(ts);
    var c := LeafCount(ts[i]);
    assert |r| == |multiset(r)| == |multiset(ts)| == |ts|;
    // r[0] has the greatest count: it is some tree of ts, and ts[i] is in r
    assert r[0] in multiset(ts);
    var m :| 0 <= m < |ts| && ts[m] == r[0];
    assert ts[i] in multiset(r);
    var n :| 0 <= n < |r| && r[n] == ts[i];
    assert LeafCount(r[0]) == c;
    HavingHead(c, ts, i);
    HavingHead(c, r, 0);
  }

  // ---------------------------------------------------------------------
  // Collections that agree up to the order between different sizes

  /** The same trees, and among trees of one leaf count the same order. */
  ghost predicate SameClasses(a: seq<Tree>, b: seq<Tree>)
  {
    multiset(a) == multiset(b) && forall c :: Having(c, a) == Having(c, b)
  }

  lemma {:induction false} HavingConcat(c: nat, s: seq<Tree>, u: seq<Tree>)
    ensures Having(c, s + u) == Having(c, s) + Having(c, u)
    decreases |s|
  {
    if |s| == 0 {
      assert s + u == u;
    } else {
      var head := if LeafCount(s[0]) == c then [s[0]] else [];
      HavingConcat(c, s[1..], u);
      assert (s + u)[0] == s[0] && (s + u)[1..] == s[1..] + u;
      assert Having(c, s + u) == head + Having(c, s[1..] + u);
      assert Having(c, s) == head + Having(c, s[1..]);
    }
  }

  lemma {:induction false} HavingNone(c: nat, s: seq<Tree>)
    requires forall j :: 0 <= j < |s| ==> LeafCount(s[j]) != c
    ensures Having(c, s) == []
    decreases |s|
  {
    if |s| > 0 {
      HavingNone(c, s[1..]);
    }
  }

  /** Taking out the first tree of its leaf count drops the head of that
      count's trees and leaves the other counts alone. */
  lemma HavingRemoveFirst(c: nat, s: seq<Tree>, i: nat)
    requires i < |s|
    requires forall j :: 0 <= j < i ==> LeafCount(s[j]) != LeafCount(s[i])
    ensures |Having(LeafCount(s[i]), s)| > 0
    ensures Having(c, s[..i] + s[i + 1..]) ==
      if c == LeafCount(s[i]) then Having(c, s)[1..] else Having(c, s)
  {
    var pre, post := s[..i], s[i + 1..];
    assert s == pre + [s[i]] + post;
    HavingConcat(c, pre + [s[i]], post);
    HavingConcat(c, pre, [s[i]]);
    HavingConcat(c, pre, post);
    HavingHead(LeafCount(s[i]), s, i);
    assert [s[i]][1..] == [];
    if c == LeafCount(s[i]) {
      HavingNone(c, pre);
    }
  }
}

=== FILE: results.dfy ===
/**
 * Failure-carrying results for the decomposition engine. The Python code
 * signals its two structural failures by raising: reading an unassigned
 * `bestEdge` when a tree has no edge below its root, and `random.choice`
 * on an empty candidate list. Here both are values.
 */
module Results {

  /** Why an edge could not be selected. */
  datatype Failure =
    | NoEdge          // the root has no children, so no edge was ever assigned
    | NoEligibleEdge  // no internal edge leaves enough leaves on both sides

  datatype Option<+T> = None | Some(value: T)

  datatype Result<+T> = Ok(value: T) | Err(error: Failure) {

    predicate IsFailure() {
      Err?
    }

    function PropagateFailure<U>(): Result<U>
      requires Err?
    {
      Err(error)
    }

    function Extract(): T
      requires Ok?
    {
      value
    }
  }
}

=== FILE: scenarios.dfy ===
/**
 * A worked shape: the caterpillar, each internal node holding the previous
 * caterpillar and one more leaf, the least balanced binary tree there is.
 */
module Scenarios {
  import opened Trees
  import opened Forests
  import opened Decompose

  /** The caterpillar over `taxa`, leaves in the given order. */
  function Caterpillar(taxa: seq<Taxon>): (t: Tree)
    requires |taxa| >= 1
    ensures Leaves(t) == taxa
    ensures LeafCount(t) == |taxa|
    decreases |taxa|
  {
    if |taxa| == 1 then Leaf(taxa[0])
    else
      var spine := Caterpillar(taxa[..|taxa| - 1]);
      var last := Leaf(taxa[|taxa| - 1]);
      assert [spine, last][1..] == [last];
      assert LeavesOf([last]) == [taxa[|taxa| - 1]];
      assert taxa == taxa[..|taxa| - 1] + [taxa[|taxa| - 1]];
      Node([spine, last])
  }

  /** Nine leaves in a caterpillar, split by centroid to at most three
      leaves a piece, give at least three pieces that hold all nine
      leaves. */
  lemma CaterpillarNineByThree(taxa: seq<Taxon>)
    requires |taxa| == 9
    ensures var r := DecomposeMaxSize(Caterpillar(taxa), 3, ByCentroid);
      && r.Ok?
      && |r.value| >= 3
      && AllWithin(r.value, 3)
      && multiset(LeavesOf(r.value)) == multiset(taxa)
  {
    PieceCountBound(Caterpillar(taxa), 3, ByCentroid);
  }
}

=== FILE: splitting.dfy ===
/**
 * Splitting a tree at an edge (`bipartitionByEdge`): the edge's head node
 * is removed from its tail's children and becomes the root of a tree of
 * its own. Both trees then have their unary nodes suppressed, as dendropy's
 * `update_bipartitions` does, so a tail node left with one child gives way
 * to that child.
 */
module Splitting {
  import opened Trees

  /** `whole` is `rest` with the block `part` inserted at position `o`. */
  predicate CutAt(whole: seq<Taxon>, rest: seq<Taxon>, part: seq<Taxon>, o: nat)
  {
    o <= |rest| && whole == rest[..o] + part + rest[o..]
  }

  /** `rest` is `whole` with the block `part` cut out somewhere. */
  ghost predicate CutFrom(whole: seq<Taxon>, rest: seq<Taxon>, part: seq<Taxon>)
  {
    exists o: nat :: CutAt(whole, rest, part, o)
  }

  /** The tree that remains once the head node of edge `p` is removed from
      its tail node's child list. */
  function Detach(t: Tree, p: Path): Tree
    requires IsEdge(t, p)
    decreases |p|
  {
    var cs, i := t.children, p[0];
    if |p| == 1 then Node(cs[..i] + cs[i + 1..])
    else Node(cs[i := Detach(cs[i], p[1..])])
  }

  /** A cut inside the middle block stays a cut once the outer blocks are
      put back on either side. */
  lemma CutAtWiden(inner: seq<Taxon>, rest: seq<Taxon>, part: seq<Taxon>, o: nat, pre: seq<Taxon>, post: seq<Taxon>)
    requires CutAt(inner, rest, part, o)
    ensures CutAt(pre + inner + post, pre + rest + post, part, |pre| + o)
  {
    var rest' := pre + rest + post;
    assert rest'[..|pre| + o] == pre + rest[..o];
    assert rest'[|pre| + o..] == rest[o..] + post;
  }

  /** A cut loses nothing: the two pieces hold the elements of the whole. */
  lemma CutCounts(whole: seq<Taxon>, rest: seq<Taxon>, part: seq<Taxon>, o: nat)
    requires CutAt(whole, rest, part, o)
    ensures multiset(rest) + multiset(part) == multiset(whole)
    ensures |rest| + |part| == |whole|
  {
    var pre, post := rest[..o], rest[o..];
    assert rest == pre + post;
    assert multiset(pre + part + post) == multiset(pre) + multiset(part) + multiset(post);
  }

  /** Removing the subtree at `p` cuts its leaves out of the leaf order as
      one block and leaves every other leaf in place. */
  lemma {:induction false} DetachLeaves(t: Tree, p: Path)
    requires IsEdge(t, p)
    ensures CutAt(Leaves(t), Leaves(Detach(t, p)), Leaves(Subtree(t, p)), Offset(t, p))
    decreases |p|
  {
    var cs, i := t.children, p[0];
    var pre, post := LeavesOf(cs[..i]), LeavesOf(cs[i + 1..]);
    LeavesOfAround(cs, i);
    if |p| == 1 {
      assert p[1..] == [];
      LeavesOfConcat(cs[..i], cs[i + 1..]);
      assert Leaves(Detach(t, p)) == pre + post;
    } else {
      var cs' := cs[i := Detach(cs[i], p[1..])];
      DetachLeaves(cs[i], p[1..]);
      LeavesOfAround(cs', i);
      assert cs'[..i] == cs[..i] && cs'[i + 1..] == cs[i + 1..];
      CutAtWiden(Leaves(cs[i]), Leaves(cs'[i]), Leaves(Subtree(t, p)), Offset(cs[i], p[1..]), pre, post);
    }
  }

  /** Removing the subtree at `p` keeps every other clade of `t`, except
      that the clades of the nodes above the edge lose the removed leaves;
      it makes no clade of its own. */
  lemma {:induction false} DetachClades(t: Tree, p: Path)
    requires IsEdge(t, p)
    ensures forall c :: c in Clades(Detach(t, p)) ==>
      c in Clades(t) || exists a :: a in Clades(t) && CutFrom(a, c, Leaves(Subtree(t, p)))
    ensures forall a :: a in Clades(t) ==>
      || a in Clades(Subtree(t, p))
      || a in Clades(Detach(t, p))
      || exists c :: c in Clades(Detach(t, p)) && CutFrom(a, c, Leaves(Subtree(t, p)))
    decreases |p|
  {
    var cs, i := t.children, p[0];
    var d, part := Detach(t, p), Leaves(Subtree(t, p));
    var cs' := d.children;
    DetachLeaves(t, p);
    assert CutFrom(Leaves(t), Leaves(d), part);
    CladesOfAround(cs, i);
    if |p| == 1 {
      assert p[1..] == [];
      CladesOfConcat(cs[..i], cs[i + 1..]);
    } else {
      DetachClades(cs[i], p[1..]);
      CladesOfAround(cs', i);
      assert cs'[..i] == cs[..i] && cs'[i + 1..] == cs[i + 1..];
    }
  }

  /** Every node of `t` ends up in exactly one of the two trees. */
  lemma {:induction false} DetachNodes(t: Tree, p: Path)
    requires IsEdge(t, p)
    ensures NodeCount(Detach(t, p)) + NodeCount(Subtree(t, p)) == NodeCount(t)
    decreases |p|
  {
    var cs, i := t.children, p[0];
    NodeCountOfAround(cs, i);
    if |p| == 1 {
      assert p[1..] == [];
      NodeCountOfConcat(cs[..i], cs[i + 1..]);
    } else {
      var cs' := cs[i := Detach(cs[i], p[1..])];
      DetachNodes(cs[i], p[1..]);
      NodeCountOfAround(cs', i);
      assert cs'[..i] == cs[..i] && cs'[i + 1..] == cs[i + 1..];
    }
  }

  /** A sequence with no repeats, cut in two, gives two sequences with no
      repeats and no element in common. */
  lemma CutDistinct(whole: seq<Taxon>, rest: seq<Taxon>, part: seq<Taxon>, o: nat)
    requires CutAt(whole, rest, part, o)
    requires Distinct(whole)
    ensures Distinct(rest) && Distinct(part)
    ensures forall x :: x in rest ==> x !in part
  {
    forall i, j | 0 <= i < j < |rest|
      ensures rest[i] != rest[j]
    {
      var wi := if i < o then i else i + |part|;
      var wj := if j < o then j else j + |part|;
      assert whole[wi] == rest[i] && whole[wj] == rest[j];
    }
    forall i, j | 0 <= i < j < |part|
      ensures part[i] != part[j]
    {
      assert whole[o + i] == part[i] && whole[o + j] == part[j];
    }
    forall i, j | 0 <= i < |rest| && 0 <= j < |part|
      ensures rest[i] != part[j]
    {
      var wi := if i < o then i else i + |part|;
      assert whole[wi] == rest[i] && whole[o + j] == part[j];
    }
  }

  /** Removing one child of a tidy tree's node leaves no node childless. */
  lemma {:induction false} DetachNoChildless(t: Tree, p: Path)
    requires IsEdge(t, p) && Tidy(t)
    ensures NoChildless(Detach(t, p))
    decreases |p|
  {
    var cs, i := t.children, p[0];
    forall j | 0 <= j < |cs| ensures NoChildless(cs[j]) {
      TidyNoChildless(cs[j]);
    }
    if |p| > 1 {
      DetachNoChildless(cs[i], p[1..]);
    }
  }

  /** The leaf order of the two halves: the detached leaves are one block
      of the original order. */
  lemma HalvesLeaves(t: Tree, p: Path)
    requires IsEdge(t, p)
    ensures Leaves(Suppress(Subtree(t, p))) == Leaves(Subtree(t, p))
    ensures CutAt(Leaves(t), Leaves(Suppress(Detach(t, p))), Leaves(Subtree(t, p)), Offset(t, p))
  {
    DetachLeaves(t, p);
  }

  /** The leaves of the two halves together are those of `t`. */
  lemma HalvesLeafCount(t: Tree, p: Path)
    requires IsEdge(t, p)
    ensures multiset(Leaves(Suppress(Detach(t, p)))) + multiset(Leaves(Suppress(Subtree(t, p)))) == multiset(Leaves(t))
    ensures LeafCount(Suppress(Detach(t, p))) + LeafCount(Suppress(Subtree(t, p))) == LeafCount(t)
  {
    HalvesLeaves(t, p);
    CutCounts(Leaves(t), Leaves(Suppress(Detach(t, p))), Leaves(Subtree(t, p)), Offset(t, p));
  }

  /** Each half has fewer nodes than `t`, and together no more. */
  lemma HalvesNodes(t: Tree, p: Path)
    requires IsEdge(t, p)
    ensures NodeCount(Suppress(Detach(t, p))) + NodeCount(Suppress(Subtree(t, p))) <= NodeCount(t)
    ensures NodeCount(Suppress(Detach(t, p))) < NodeCount(t) && NodeCount(Suppress(Subtree(t, p))) < NodeCount(t)
  {
    DetachNodes(t, p);
  }

  /** On a tidy tree the detached half is the subtree itself, and both
      halves are tidy. */
  lemma HalvesTidy(t: Tree, p: Path)
    requires IsEdge(t, p) && Tidy(t)
    ensures Tidy(Suppress(Detach(t, p)))
    ensures Suppress(Subtree(t, p)) == Subtree(t, p) && Tidy(Subtree(t, p))
  {
    DetachNoChildless(t, p);
    SubtreeTidy(t, p);
    SuppressTidy(Subtree(t, p));
  }

  /** The clades of the two halves, in terms of the clades of `t`. */
  lemma HalvesClades(t: Tree, p: Path)
    requires IsEdge(t, p)
    ensures Clades(Suppress(Subtree(t, p))) == Clades(Subtree(t, p))
    ensures forall c :: c in Clades(Suppress(Detach(t, p))) ==>
      c in Clades(t) || exists a :: a in Clades(t) && CutFrom(a, c, Leaves(Subtree(t, p)))
    ensures forall a :: a in Clades(t) ==>
      || a in Clades(Subtree(t, p))
      || a in Clades(Suppress(Detach(t, p)))
      || exists c :: c in Clades(Suppress(Detach(t, p))) && CutFrom(a, c, Leaves(Subtree(t, p)))
  {
    DetachClades(t, p);
  }

  /** Distinct taxa stay distinct in each half, and the halves share none. */
  lemma HalvesDistinct(t: Tree, p: Path)
    requires IsEdge(t, p) && Distinct(Leaves(t))
    ensures Distinct(Leaves(Suppress(Detach(t, p)))) && Distinct(Leaves(Subtree(t, p)))
    ensures forall x :: x in Leaves(Suppress(Detach(t, p))) ==> x !in Leaves(Subtree(t, p))
  {
    HalvesLeaves(t, p);
    CutDistinct(Leaves(t), Leaves(Suppress(Detach(t, p))), Leaves(Subtree(t, p)), Offset(t, p));
  }

  /** Splits `t` at edge `p` into (remaining tree, detached tree), in that
      order. The detached tree is the subtree at the edge's head; the
      remaining tree keeps the original root and every other node. Both
      have their unary nodes suppressed. */
  function BipartitionByEdge(t: Tree, p: Path): (r: (Tree, Tree))
    requires IsEdge(t, p)
    ensures Leaves(r.1) == Leaves(Subtree(t, p))
    ensures CutAt(Leaves(t), Leaves(r.0), Leaves(r.1), Offset(t, p))
    ensures multiset(Leaves(r.0)) + multiset(Leaves(r.1)) == multiset(Leaves(t))
    ensures LeafCount(r.0) + LeafCount(r.1) == LeafCount(t)
    ensures NodeCount(r.0) + NodeCount(r.1) <= NodeCount(t)
    ensures NodeCount(r.0) < NodeCount(t) && NodeCount(r.1) < NodeCount(t)
    ensures Tidy(t) ==> Tidy(r.0) && r.1 == Subtree(t, p) && Tidy(r.1)
    ensures Clades(r.1) == Clades(Subtree(t, p))
    ensures forall c :: c in Clades(r.0) ==>
      c in Clades(t) || exists a :: a in Clades(t) && CutFrom(a, c, Leaves(r.1))
    ensures forall a :: a in Clades(t) ==>
      || a in Clades(r.1)
      || a in Clades(r.0)
      || exists c :: c in Clades(r.0) && CutFrom(a, c, Leaves(r.1))
    ensures Distinct(Leaves(t)) ==>
      Distinct(Leaves(r.0)) && Distinct(Leaves(r.1))
      && forall x :: x in Leaves(r.0) ==> x !in Leaves(r.1)
  {
    HalvesLeaves(t, p);
    HalvesLeafCount(t, p);
    HalvesNodes(t, p);
    HalvesClades(t, p);
    assert Tidy(t) ==> Tidy(Suppress(Detach(t, p))) && Suppress(Subtree(t, p)) == Subtree(t, p) && Tidy(Subtree(t, p)) by {
      if Tidy(t) { HalvesTidy(t, p); }
    }
    assert Distinct(Leaves(t)) ==>
      Distinct(Leaves(Suppress(Detach(t, p)))) && Distinct(Leaves(Subtree(t, p)))
      && forall x :: x in Leaves(Suppress(Detach(t, p))) ==> x !in Leaves(Subtree(t, p)) by {
      if Distinct(Leaves(t)) { HalvesDistinct(t, p); }
    }
    (Suppress(Detach(t, p)), Suppress(Subtree(t, p)))
  }
}

=== FILE: trees.dfy ===
/**
 * Rooted trees as the decomposition engine sees them: ordered children,
 * taxon labels on leaves, and edges named by the path of child indices
 * leading from the root to the edge's head node.
 *
 * Where the Python code reads a bipartition bitmask and counts its set
 * bits, this model counts the labelled leaves below the head node; with
 * distinct taxa the two numbers agree.
 */
module Trees {

  type Taxon = string

  /** A labelled leaf, or an internal node with ordered children. The type
      admits a `Node` with one child or with none; the trees the
      decomposition works on are `Tidy`, and splitting keeps them so. */
  datatype Tree = Leaf(taxon: Taxon) | Node(children: seq<Tree>)

  /** Child indices from the root down to a node; `[]` names the root,
      whose (seed) edge has no tail. */
  type Path = seq<nat>

  /** The taxa of the labelled leaves, left to right. */
  function Leaves(t: Tree): seq<Taxon>
  {
    match t
    case Leaf(x) => [x]
    case Node(cs) => LeavesOf(cs)
  }

  /** The taxa of a sequence of trees, concatenated in order. */
  function LeavesOf(ts: seq<Tree>): seq<Taxon>
  {
    if |ts| == 0 then [] else Leaves(ts[0]) + LeavesOf(ts[1..])
  }

  /** The number of labelled leaves. */
  function LeafCount(t: Tree): nat
  {
    |Leaves(t)|
  }

  /** The clades: the leaves below each node, in order, the whole tree's
      among them. In dendropy's terms, the leaf sets of all bipartitions. */
  function Clades(t: Tree): (r: set<seq<Taxon>>)
    ensures Leaves(t) in r
  {
    match t
    case Leaf(x) => {[x]}
    case Node(cs) => {LeavesOf(cs)} + CladesOf(cs)
  }

  function CladesOf(ts: seq<Tree>): set<seq<Taxon>>
  {
    if |ts| == 0 then {} else Clades(ts[0]) + CladesOf(ts[1..])
  }

  /** The number of nodes, leaves and internal nodes alike. */
  function NodeCount(t: Tree): nat
  {
    match t
    case Leaf(_) => 1
    case Node(cs) => 1 + NodeCountOf(cs)
  }

  function NodeCountOf(ts: seq<Tree>): nat
  {
    if |ts| == 0 then 0 else NodeCount(ts[0]) + NodeCountOf(ts[1..])
  }

  /** The root has children, so at least one edge has a tail node. In
      dendropy's terms the root is an internal node. */
  predicate HasChildren(t: Tree)
  {
    t.Node? && |t.children| > 0
  }

  predicate ValidPath(t: Tree, p: Path)
  {
    |p| == 0 || (t.Node? && p[0] < |t.children| && ValidPath(t.children[p[0]], p[1..]))
  }

  /** The subtree rooted at the node `p` names. */
  function Subtree(t: Tree, p: Path): Tree
    requires ValidPath(t, p)
  {
    if |p| == 0 then t else Subtree(t.children[p[0]], p[1..])
  }

  /** An edge other than the seed edge: its head is a node below the root. */
  predicate IsEdge(t: Tree, p: Path)
  {
    |p| > 0 && ValidPath(t, p)
  }

  /** The number of leaves below the head of `p`: the popcount of the edge's
      bipartition bitmask. */
  function CladeSize(t: Tree, p: Path): nat
    requires ValidPath(t, p)
  {
    LeafCount(Subtree(t, p))
  }

  /** The number of leaves left of the subtree at `p`. */
  function Offset(t: Tree, p: Path): nat
    requires ValidPath(t, p)
  {
    if |p| == 0 then 0
    else |LeavesOf(t.children[..p[0]])| + Offset(t.children[p[0]], p[1..])
  }

  /** Every node's path, children before parents and siblings left to
      right: the order of dendropy's postorder edge iteration. The root
      comes last. */
  function Postorder(t: Tree): seq<Path>
  {
    match t
    case Leaf(_) => [[]]
    case Node(cs) => PostorderOf(cs) + [[]]
  }

  /** Postorder of the children `ts`, each path prefixed by its child index. */
  function PostorderOf(ts: seq<Tree>): seq<Path>
  {
    if |ts| == 0 then []
    else PostorderOf(ts[..|ts| - 1]) + Prefixed(|ts| - 1, Postorder(ts[|ts| - 1]))
  }

  function Prefixed(i: nat, ps: seq<Path>): (r: seq<Path>)
    ensures |r| == |ps|
    ensures forall j :: 0 <= j < |ps| ==> r[j] == [i] + ps[j]
  {
    seq(|ps|, j requires 0 <= j < |ps| => [i] + ps[j])
  }

  /** No taxon labels two leaves: every taxon has its own bit in the
      namespace's bitmask. */
  predicate Distinct(s: seq<Taxon>)
  {
    forall i, j :: 0 <= i < j < |s| ==> s[i] != s[j]
  }

  /** Every internal node has two or more children, each tidy: the shape
      dendropy leaves a tree in once unary nodes are suppressed. */
  predicate Tidy(t: Tree)
  {
    match t
    case Leaf(_) => true
    case Node(cs) => |cs| >= 2 && forall i :: 0 <= i < |cs| ==> Tidy(cs[i])
  }

  /** No internal node is childless, though some may have a single child. */
  predicate NoChildless(t: Tree)
  {
    match t
    case Leaf(_) => true
    case Node(cs) => |cs| >= 1 && forall i :: 0 <= i < |cs| ==> NoChildless(cs[i])
  }

  /** The number of nodes without children, labelled or not: the length of
      dendropy's `leaf_nodes()`. */
  function LeafNodeCount(t: Tree): nat
  {
    match t
    case Leaf(_) => 1
    case Node(cs) => if |cs| == 0 then 1 else LeafNodeCountOf(cs)
  }

  function LeafNodeCountOf(ts: seq<Tree>): nat
  {
    if |ts| == 0 then 0 else LeafNodeCount(ts[0]) + LeafNodeCountOf(ts[1..])
  }

  /** Suppression of unifurcations: every internal node with a single child
      is replaced by that child, at the root as anywhere else. */
  function Suppress(t: Tree): (r: Tree)
    ensures Leaves(r) == Leaves(t)
    ensures NodeCount(r) <= NodeCount(t)
    ensures NoChildless(t) ==> Tidy(r)
    ensures Clades(r) == Clades(t)
  {
    match t
    case Leaf(_) => t
    case Node(cs) =>
      var cs' := SuppressAll(cs);
      if |cs'| == 1 then
        assert LeavesOf(cs') == Leaves(cs'[0]) + LeavesOf(cs'[1..]);
        assert NodeCountOf(cs') == NodeCount(cs'[0]) + NodeCountOf(cs'[1..]);
        assert LeavesOf(cs) == Leaves(cs[0]) + LeavesOf(cs[1..]);
        assert CladesOf(cs) == Clades(cs[0]) + CladesOf(cs[1..]);
        cs'[0]
      else Node(cs')
  }

  function SuppressAll(ts: seq<Tree>): (r: seq<Tree>)
    ensures |r| == |ts|
    ensures forall i :: 0 <= i < |ts| ==> r[i] == Suppress(ts[i])
    ensures LeavesOf(r) == LeavesOf(ts)
    ensures NodeCountOf(r) <= NodeCountOf(ts)
    ensures CladesOf(r) == CladesOf(ts)
  {
    if |ts| == 0 then [] else [Suppress(ts[0])] + SuppressAll(ts[1..])
  }

  // ---------------------------------------------------------------------
  // Lemmas about leaves and node counts

  lemma {:induction false} LeavesOfConcat(a: seq<Tree>, b: seq<Tree>)
    ensures LeavesOf(a + b) == LeavesOf(a) + LeavesOf(b)
    decreases |a|
  {
    if |a| == 0 {
      assert a + b == b;
    } else {
      assert (a + b)[1..] == a[1..] + b;
      LeavesOfConcat(a[1..], b);
    }
  }

  /** The leaves of a forest split around its `i`-th tree. */
  lemma {:induction false} LeavesOfAround(ts: seq<Tree>, i: nat)
    requires i < |ts|
    ensures LeavesOf(ts) == LeavesOf(ts[..i]) + Leaves(ts[i]) + LeavesOf(ts[i + 1..])
  {
    var pre, rest := ts[..i], ts[i..];
    assert ts == pre + rest;
    LeavesOfConcat(pre, rest);
    assert rest[0] == ts[i] && rest[1..] == ts[i + 1..];
    assert LeavesOf(rest) == Leaves(ts[i]) + LeavesOf(ts[i + 1..]);
  }

  lemma {:induction false} CladesOfConcat(a: seq<Tree>, b: seq<Tree>)
    ensures CladesOf(a + b) == CladesOf(a) + CladesOf(b)
    decreases |a|
  {
    if |a| == 0 {
      assert a + b == b;
    } else {
      assert (a + b)[1..] == a[1..] + b;
      CladesOfConcat(a[1..], b);
    }
  }

  /** The clades of a forest split around its `i`-th tree. */
  lemma CladesOfAround(ts: seq<Tree>, i: nat)
    requires i < |ts|
    ensures CladesOf(ts) == CladesOf(ts[..i]) + Clades(ts[i]) + CladesOf(ts[i + 1..])
  {
    var pre, rest := ts[..i], ts[i..];
    assert ts == pre + rest;
    CladesOfConcat(pre, rest);
    assert rest[0] == ts[i] && rest[1..] == ts[i + 1..];
  }

  lemma {:induction false} NodeCountOfConcat(a: seq<Tree>, b: seq<Tree>)
    ensures NodeCountOf(a + b) == NodeCountOf(a) + NodeCountOf(b)
    decreases |a|
  {
    if |a| == 0 {
      assert a + b == b;
    } else {
      assert (a + b)[1..] == a[1..] + b;
      NodeCountOfConcat(a[1..], b);
    }
  }

  lemma {:induction false} NodeCountOfAround(ts: seq<Tree>, i: nat)
    requires i < |ts|
    ensures NodeCountOf(ts) == NodeCountOf(ts[..i]) + NodeCount(ts[i]) + NodeCountOf(ts[i + 1..])
  {
    var pre, rest := ts[..i], ts[i..];
    assert ts == pre + rest;
    NodeCountOfConcat(pre, rest);
    assert rest[0] == ts[i] && rest[1..] == ts[i + 1..];
  }

  /** The leaves under the head of `p` are the contiguous block of the
      tree's leaves that starts at `Offset(t, p)`. */
  lemma {:induction false} CladeIsSlice(t: Tree, p: Path)
    requires ValidPath(t, p)
    ensures Offset(t, p) + CladeSize(t, p) <= LeafCount(t)
    ensures Leaves(t)[Offset(t, p)..Offset(t, p) + CladeSize(t, p)] == Leaves(Subtree(t, p))
    decreases |p|
  {
    if |p| > 0 {
      var cs, i := t.children, p[0];
      CladeIsSlice(cs[i], p[1..]);
      LeavesOfAround(cs, i);
      SliceOfMiddle(LeavesOf(cs[..i]), Leaves(cs[i]), LeavesOf(cs[i + 1..]), Offset(cs[i], p[1..]), CladeSize(t, p));
    }
  }

  /** A slice of the middle block is the same slice of the whole, shifted
      by the first block. */
  lemma SliceOfMiddle<T>(pre: seq<T>, mid: seq<T>, post: seq<T>, o: nat, k: nat)
    requires o + k <= |mid|
    ensures (pre + mid + post)[|pre| + o..|pre| + o + k] == mid[o..o + k]
  {
  }

  /** A path inside a tree with a leaf below the root ends at a labelled leaf. */
  lemma {:induction false} PendantEdgeExists(t: Tree) returns (p: Path)
    requires HasChildren(t) && LeafCount(t) >= 1
    ensures IsEdge(t, p) && Subtree(t, p).Leaf?
    decreases t
  {
    var cs := t.children;
    var i := NonEmptyChild(cs);
    if cs[i].Leaf? {
      p := [i];
      assert p[1..] == [];
    } else {
      assert LeafCount(cs[i]) == |LeavesOf(cs[i].children)|;
      var q := PendantEdgeExists(cs[i]);
      p := [i] + q;
      assert p[1..] == q;
    }
  }

  /** Some tree of a forest with leaves has leaves itself. */
  lemma {:induction false} NonEmptyChild(ts: seq<Tree>) returns (i: nat)
    requires |LeavesOf(ts)| >= 1
    ensures i < |ts| && LeafCount(ts[i]) >= 1
    decreases |ts|
  {
    if LeafCount(ts[0]) >= 1 {
      i := 0;
    } else {
      var j := NonEmptyChild(ts[1..]);
      i := j + 1;
    }
  }

  /** A tree with two or more leaves is not a single leaf and not an
      empty node, so its root has children. */
  lemma TwoLeavesHaveChildren(t: Tree)
    requires LeafCount(t) >= 2
    ensures HasChildren(t)
  {
    if t.Node? {
      assert LeafCount(t) == |LeavesOf(t.children)|;
    }
  }

  // ---------------------------------------------------------------------
  // The postorder enumeration names exactly the nodes

  lemma {:induction false} PostorderOfMembers(ts: seq<Tree>, p: Path)
    ensures p in PostorderOf(ts) <==>
      (|p| > 0 && p[0] < |ts| && p[1..] in Postorder(ts[p[0]]))
    decreases |ts|
  {
    if |ts| > 0 {
      var n := |ts| - 1;
      var last := Prefixed(n, Postorder(ts[n]));
      PostorderOfMembers(ts[..n], p);
      assert p in last <==> (|p| > 0 && p[0] == n && p[1..] in Postorder(ts[n])) by {
        if p in last {
          var j :| 0 <= j < |last| && last[j] == p;
          assert p[1..] == Postorder(ts[n])[j];
        }
        if |p| > 0 && p[0] == n && p[1..] in Postorder(ts[n]) {
          var j :| 0 <= j < |Postorder(ts[n])| && Postorder(ts[n])[j] == p[1..];
          assert last[j] == [n] + p[1..] == p;
        }
      }
      if |p| > 0 && p[0] < n {
        assert ts[..n][p[0]] == ts[p[0]];
      }
    }
  }

  lemma {:induction false} PostorderMembers(t: Tree, p: Path)
    ensures p in Postorder(t) <==> ValidPath(t, p)
    decreases t, |p|
  {
    match t
    case Leaf(_) =>
    case Node(cs) =>
      PostorderOfMembers(cs, p);
      if |p| > 0 && p[0] < |cs| {
        PostorderMembers(cs[p[0]], p[1..]);
      }
  }

  /** The postorder enumeration lists exactly the valid paths. */
  lemma PostorderExact(t: Tree)
    ensures forall p :: p in Postorder(t) <==> ValidPath(t, p)
  {
    forall p ensures p in Postorder(t) <==> ValidPath(t, p) {
      PostorderMembers(t, p);
    }
  }

  // ---------------------------------------------------------------------
  // Tidy trees

  lemma {:induction false} TidyNoChildless(t: Tree)
    requires Tidy(t)
    ensures NoChildless(t)
  {
    match t
    case Leaf(_) =>
    case Node(cs) =>
      forall i | 0 <= i < |cs| ensures NoChildless(cs[i]) {
        TidyNoChildless(cs[i]);
      }
  }

  /** A tidy tree has a labelled leaf, and one with children has two; so a
      tidy tree with a single labelled leaf is that leaf. */
  lemma {:induction false} TidyLeafCount(t: Tree)
    requires Tidy(t)
    ensures LeafCount(t) >= 1
    ensures t.Node? ==> LeafCount(t) >= 2
  {
    match t
    case Leaf(_) =>
    case Node(cs) =>
      TidyForestCount(cs);
  }

  lemma {:induction false} TidyForestCount(ts: seq<Tree>)
    requires forall i :: 0 <= i < |ts| ==> Tidy(ts[i])
    ensures |LeavesOf(ts)| >= |ts|
  {
    if |ts| > 0 {
      TidyLeafCount(ts[0]);
      TidyForestCount(ts[1..]);
    }
  }

  /** On a tidy tree `leaf_nodes()` finds exactly the labelled leaves. */
  lemma {:induction false} TidyLeafNodes(t: Tree)
    requires Tidy(t)
    ensures LeafNodeCount(t) == LeafCount(t)
  {
    match t
    case Leaf(_) =>
    case Node(cs) =>
      TidyLeafNodesOf(cs);
  }

  lemma {:induction false} TidyLeafNodesOf(ts: seq<Tree>)
    requires forall i :: 0 <= i < |ts| ==> Tidy(ts[i])
    ensures LeafNodeCountOf(ts) == |LeavesOf(ts)|
  {
    if |ts| > 0 {
      TidyLeafNodes(ts[0]);
      TidyLeafNodesOf(ts[1..]);
    }
  }

  /** A childless internal node is counted by `leaf_nodes()` but holds no
      labelled leaf, so in general the count only bounds the labelled
      leaves from above. */
  lemma {:induction false} LeafNodesBound(t: Tree)
    ensures LeafNodeCount(t) >= LeafCount(t)
  {
    match t
    case Leaf(_) =>
    case Node(cs) =>
      LeafNodesBoundOf(cs);
  }

  /** The bound can be strict: a childless internal node is one of
      `leaf_nodes()` but has no labelled leaf. */
  lemma ChildlessNodeCounted()
    ensures LeafNodeCount(Node([])) == 1 && LeafCount(Node([])) == 0
  {
  }

  lemma {:induction false} LeafNodesBoundOf(ts: seq<Tree>)
    ensures LeafNodeCountOf(ts) >= |LeavesOf(ts)|
  {
    if |ts| > 0 {
      LeafNodesBound(ts[0]);
      LeafNodesBoundOf(ts[1..]);
    }
  }

  /** Suppression leaves a tidy tree as it is. */
  lemma {:induction false} SuppressTidy(t: Tree)
    requires Tidy(t)
    ensures Suppress(t) == t
  {
    match t
    case Leaf(_) =>
    case Node(cs) =>
      forall i | 0 <= i < |cs| ensures Suppress(cs[i]) == cs[i] {
        SuppressTidy(cs[i]);
      }
      assert SuppressAll(cs) == cs;
  }

  /** The subtree below any node of a tidy tree is tidy. */
  lemma {:induction false} SubtreeTidy(t: Tree, p: Path)
    requires ValidPath(t, p) && Tidy(t)
    ensures Tidy(Subtree(t, p))
    decreases |p|
  {
    if |p| > 0 {
      SubtreeTidy(t.children[p[0]], p[1..]);
    }
  }
}
